=== FILE: README.md ===
# api_yamdb decision rules in Dafny

A model of the core of api_yamdb. api_yamdb is a Django REST backend for reviews of titles (books, films, music). Users sign up by email, get a confirmation code, and trade it for an access token. Accounts carry a role (`user`, `moderator`, `admin`). Reviews and comments hang off titles.

The model covers:

- the three permission classes of `api/permissions.py`;
- the standalone validators of `api/validators.py`, `reviews/validators.py` and `users/validators.py`;
- the validation that the serializers of `api/serializers.py` run. This includes the parts of Django REST framework they rely on: `CharField` stripping, `required`, `blank`, `max_length` and NUL checks, and `IntegerField` bounds;
- the branch structure of the `signup` view and of `GetTokenApiView.post`;
- the tables of `reviews/models.py` and `users/models.py`: unique columns, foreign keys with `CASCADE` and `SET_NULL`, default ordering, `create_user`, `has_perm` and `has_module_perms`.

Modules, one per file:

| file | module | models |
|---|---|---|
| outcomes.dfy | `Outcomes` | `Option`, `Result`, the exceptions a view can raise, `dict.get` |
| text.dfy | `Text` | Python's `str.strip()`, substring search, and facts about letter pairs |
| users.dfy | `Users` | the `CustomUser` row, role choices, `validate_username`, `has_perm` |
| store.dfy | `Store` | the database as maps keyed by primary key, with its constraints, saves, inserts and deletes |
| permissions.dfy | `Permissions` | `OnlyAdminPermission`, `IsAdminOrReadOnly`, `ReadOnlyOrAuthorOrAdmin` |
| validators.dfy | `Validators` | `category_slug_validator`, `title_year_validator`, `validate_year` |
| fields.dfy | `Fields` | the field checks and the error details of the REST framework, and `str()` of an error list |
| serializers.dfy | `Serializers` | the sign-up, token, review, category and title serializers |
| views.dfy | `Views` | `signup` and `GetTokenApiView.post` |
| listing.dfy | `Listing` | the `-pub_date` ordering of reviews and comments |
| manager.dfy | `Manager` | `CustomUserManager.create_user` |

Outside collaborators are parameters of the model:

- `Views.Env` carries the email syntax check, `serializer.save()`, the confirmation-code generator and its check, and the access token.
- `date.today().year` is the parameter `currentYear`.
- A new row's primary key is the parameter `pk`. A timestamp is an integer.

In these places the code does something other than its names and messages suggest; the model follows the code:

- The token endpoint never sets `is_active`.
- A wrong confirmation code gets the same 404 as an unknown user, not a 400.
- A token is returned with status 201 Created, although the request creates no row.
- Every `signup` response has status 200, including refusals.
- A known username submitted with another email does not get a 400 email-mismatch error. `SignUpSerializer.validate` files that error under `non_field_errors`, so `serializer.errors['username']` raises `KeyError`.
- A repeated sign-up with the same pair is valid for the serializer and goes through the registration branch again, not the resend branch. The resend branch at `api/views.py:91-106` is unreachable. It is entered only when the `username` errors contain `exists`. The sign-up serializer is a plain `Serializer` with no uniqueness validator, so no error it produces contains that word.

## Model

| member | source | states |
|---|---|---|
| Users.ParseRole | api_yamdb/users/models.py:60-66 | a stored role string names a choice exactly when it is `user`, `moderator` or `admin`, and the choice found has that name |
| Users.ParseRoleRoundTrip | api_yamdb/users/models.py:60-64 | parsing the stored name of each role gives that role back |
| Users.DefaultRoleIsUser | api_yamdb/users/models.py:60-66 | the column default of `role` is one of the choices: the plain user role |
| Users.NewAccount | api_yamdb/users/models.py:55-58 | a new account keeps the given identity, is active, and is not admin, staff or superuser |
| Users.ValidateUsername | api_yamdb/users/validators.py:4-8 | refuses a username exactly when it equals `me`; an accepted name is returned unchanged |
| Users.ValidateUsernameIsExact | api_yamdb/users/validators.py:6 | the comparison is exact: `Me`, `ME` and the empty string pass, `me` does not |
| Users.CleanAccountNotReserved | api_yamdb/users/models.py:50-51 | a row that passes model validation never holds `me` and has a role among the choices |
| Users.HasPerm | api_yamdb/users/models.py:93-94 | `has_perm` is true exactly when `is_admin` is set |
| Users.HasModulePerms | api_yamdb/users/models.py:96-97 | `has_module_perms` is true for every account and app |
| Users.HasPermIgnoresPermission | api_yamdb/users/models.py:93-94 | `has_perm` gives the same answer for any two permissions |
| Store.DefaultScoreOutOfRange | api_yamdb/reviews/models.py:134-137 | the column default 0 of `score` lies outside the 1..10 range its validators demand |
| Store.EmptyIsValid | api_yamdb/reviews/models.py:85-162 | the empty database meets every unique and foreign-key constraint |
| Store.FindByUsername | api_yamdb/api/views.py:121-122 | with usernames unique, the lookup finds nothing exactly when no row has the name, and otherwise a stored row with that name |
| Store.SaveAccount | api_yamdb/users/models.py:49-51 | saving refuses exactly a clash of username or email with another row; otherwise it writes the row at its key and keeps the database valid |
| Store.InsertCategory | api_yamdb/reviews/models.py:89 | creation fails exactly on a used primary key or an existing slug; otherwise it adds the row and keeps the database valid |
| Store.InsertReview | api_yamdb/reviews/models.py:127-133 | creation fails exactly on a used key, a missing title or a missing author; otherwise it adds the row and keeps the database valid |
| Store.DeleteTitle | api_yamdb/reviews/models.py:127-128 | removes the title and exactly its reviews, and the comments on those reviews; every other row is unchanged |
| Store.DeleteTitleKeepsValid | api_yamdb/reviews/models.py:150-151 | the cascade leaves the database valid and no comment on a review of the deleted title |
| Store.DeleteReview | api_yamdb/reviews/models.py:150-151 | removes the review and exactly its comments; other reviews and comments are unchanged |
| Store.DeleteReviewKeepsValid | api_yamdb/reviews/models.py:150-151 | deleting a review leaves the database valid |
| Store.DeleteUser | api_yamdb/reviews/models.py:130-133 | removes the account, its reviews, its comments, and every comment on its reviews; other rows are unchanged |
| Store.DeleteUserKeepsValid | api_yamdb/reviews/models.py:153-156 | the cascade leaves the database valid and no comment on a review by the deleted account |
| Store.DeleteCategory | api_yamdb/reviews/models.py:110-114 | removes the category; its titles survive with a null category and nothing else changes |
| Store.DeleteCategoryKeepsValid | api_yamdb/reviews/models.py:110-114 | `SET_NULL` leaves the database valid |
| Store.DeleteGenre | api_yamdb/reviews/models.py:115-117 | removes the genre and its links from every title; the titles themselves survive |
| Store.DeleteGenreKeepsValid | api_yamdb/reviews/models.py:115-117 | dropping the many-to-many links leaves the database valid |
| Store.DeleteComment | api_yamdb/reviews/models.py:149-156 | removes only the comment |
| Store.DeleteCommentKeepsValid | api_yamdb/reviews/models.py:149-156 | deleting a comment leaves the database valid |
| Permissions.OnlyAdminHasPermission | api_yamdb/api/permissions.py:9-14 | admits an administrator by role or superuser flag on any path, any other account on the `me` path only, and never the anonymous user |
| Permissions.OnlyAdminHasObjectPermission | api_yamdb/api/permissions.py:16-19 | on the `me` path it holds exactly for the requester's own record; elsewhere it always holds |
| Permissions.AdminOrReadOnlyHasPermission | api_yamdb/api/permissions.py:29-36 | admits the literal `GET` from anyone, and any other method only from an administrator by role or superuser flag |
| Permissions.AuthorOrAdminHasPermission | api_yamdb/api/permissions.py:44-47 | admits `GET` from anyone and any other method from any account |
| Permissions.AuthorOrAdminHasObjectPermission | api_yamdb/api/permissions.py:49-56 | admits `GET`; any other method needs a moderator, an administrator, or the object's author |
| Permissions.OnlyAdminDeniesAnonymous | api_yamdb/api/permissions.py:9-14 | the anonymous user is refused on every path |
| Permissions.SelfPathReachesOnlyOwnRecord | api_yamdb/api/permissions.py:13-18 | through the `me` path both checks together reach only the requester's own record |
| Permissions.AdminOrReadOnlyAdmitsGet | api_yamdb/api/permissions.py:30-31 | `GET` is admitted for everyone, the anonymous user included |
| Permissions.OnlyLiteralGetReads | api_yamdb/api/permissions.py:30-36 | `HEAD`, `OPTIONS` and a lower-case `get` are not reads and are refused to the anonymous user |
| Permissions.AdminOrReadOnlyDeniesModerator | api_yamdb/api/permissions.py:32-36 | a moderator or plain user without the superuser flag cannot write |
| Permissions.AdminWritersMayChangeAnyObject | api_yamdb/api/permissions.py:33-55 | whoever may write through `IsAdminOrReadOnly` may change any review or comment, whoever wrote it |
| Permissions.AdminFlagGrantsNoWrite | api_yamdb/users/models.py:93-94 | `is_admin` makes `has_perm` true yet opens no write in any of the three classes |
| Validators.CategorySlugValidator | api_yamdb/api/validators.py:8-12 | refuses exactly a slug some category already has; an accepted slug is returned unchanged |
| Validators.TitleYearValidator | api_yamdb/api/validators.py:15-21 | accepts exactly the years from 0 to the current year and returns them unchanged |
| Validators.ValidateYear | api_yamdb/reviews/validators.py:6-11 | accepts exactly the years up to the current year, negative ones included, and returns them unchanged |
| Validators.CurrentYearAccepted | api_yamdb/reviews/validators.py:9 | the current year itself passes both year validators |
| Validators.YearValidatorsDifferOnNegatives | api_yamdb/api/validators.py:18 | whatever `title_year_validator` accepts `validate_year` accepts, and they differ exactly on negative years |
| Validators.ValidatedSlugInsertSucceeds | api_yamdb/api/validators.py:10-12 | a slug the validator passed never trips the unique slug column |
| Fields.CharField | api_yamdb/api/serializers.py:133-134 | a missing value is required, an all-blank one is refused, and the stripped value is accepted exactly when it fits the limit and holds no NUL; a refused non-blank value reports the length error exactly when too long and the null-character error exactly when it holds NUL |
| Fields.IntegerField | api_yamdb/api/serializers.py:94 | accepts exactly a present value within the bounds, unchanged; a refused present value reports the upper-bound error exactly when above it and the lower-bound error exactly when below it |
| Fields.CharFieldErrorsQuiet | api_yamdb/api/serializers.py:133 | no error a `CharField` reports contains the letter pair `ex` |
| Fields.RenderNeverSaysExists | api_yamdb/api/views.py:91 | `str()` of a list of such errors never contains `exists` |
| Serializers.SignUpValidateUsername | api_yamdb/api/serializers.py:144-154 | refuses exactly `me`; any other name passes unchanged |
| Serializers.SignUpValidateEmail | api_yamdb/api/serializers.py:136-142 | refuses exactly what the email check refuses; an accepted email is unchanged |
| Serializers.SignUpValidate | api_yamdb/api/serializers.py:156-164 | refuses exactly a username held by an account under another email, under `non_field_errors`; otherwise passes the data unchanged |
| Serializers.SignUpIsValid | api_yamdb/api/serializers.py:131-164 | accepts exactly well-formed stripped fields whose username no account holds under another email; errors sit under `username` and `email` exactly when that field failed, each holding that field's own errors, and under `non_field_errors` only the wrong-email message |
| Serializers.UsernameErrorsQuiet | api_yamdb/api/serializers.py:133-154 | no error of the username field or its hook contains the letter pair `ex` |
| Serializers.ForbiddenUsernameQuiet | api_yamdb/api/serializers.py:147-149 | the reserved-name error contains no `ex` |
| Serializers.SignUpUsernameAgreesWithModel | api_yamdb/api/serializers.py:146-149 | sign-up refuses among well-formed usernames exactly the ones `validate_username` of the model refuses |
| Serializers.GetTokenIsValid | api_yamdb/api/serializers.py:167-174 | accepts exactly a well-formed username and code of at most 256 characters each, stripped; a refusal carries each failed field's own errors under its name and nothing else |
| Serializers.ScoreField | api_yamdb/api/serializers.py:94 | accepts exactly a present score from 1 to 10 |
| Serializers.ReviewText | api_yamdb/api/serializers.py:113-115 | the model's `text` field: refused exactly when checked and missing, blank or holding NUL, with the `CharField` errors; a `PATCH` without it leaves it absent; accepted text is stripped |
| Serializers.ReviewScore | api_yamdb/api/serializers.py:94 | the `score` field: refused exactly when checked and missing or outside 1..10, with the `IntegerField` errors; a `PATCH` without it leaves it absent |
| Serializers.ReviewValidate | api_yamdb/api/serializers.py:96-111 | refuses exactly when the author already reviewed the title and the method is not `PATCH`, with the duplicate-review message under `non_field_errors`; otherwise passes the data unchanged |
| Serializers.ReviewIsValid | api_yamdb/api/serializers.py:89-115 | a `PATCH` skips missing fields (validated as absent) and the duplicate check; otherwise text and score are required and checked; accepted text is stripped and the score unchanged; a refusal files each failed field's errors under its name, and the duplicate-review message under `non_field_errors` only when both fields passed |
| Serializers.ValidatedPostKeepsOneReviewPerPair | api_yamdb/api/serializers.py:102-110 | a review created after a validated `POST` keeps one review per author and title |
| Serializers.PutOnOwnReviewRefused | api_yamdb/api/serializers.py:102-110 | a `PUT` of an author's own existing review is refused |
| Serializers.PatchSkipsDuplicateCheck | api_yamdb/api/serializers.py:107 | an empty `PATCH` passes whatever the author wrote before |
| Serializers.CategoryValidateSlug | api_yamdb/api/serializers.py:32-36 | refuses exactly an existing slug; an accepted slug is unchanged |
| Serializers.CategoryHookMatchesValidator | api_yamdb/api/serializers.py:32-36 | the hook refuses the same slugs as `category_slug_validator`, with the same message |
| Serializers.OwnSlugRefusedOnUpdate | api_yamdb/api/serializers.py:34-35 | resubmitting a category's own slug is refused |
| Serializers.TitleValidateYear | api_yamdb/api/serializers.py:64-71 | refuses exactly the years after the current one; other years pass unchanged |
| Serializers.TitleHookMatchesModelValidator | api_yamdb/api/serializers.py:67 | the hook agrees with `validate_year` and takes negative years that `title_year_validator` refuses |
| Views.ExtractCode | api_yamdb/api/views.py:79-82 | a code read from a mail body is what follows the greeting and the marker |
| Views.ConfirmationCodeRoundTrip | api_yamdb/api/views.py:79-82 | the code put into a confirmation mail is the code read back from it |
| Views.Register | api_yamdb/api/views.py:73-88 | fails exactly on a clash when saving, changing nothing; otherwise the database differs only in the obtained account, stored inactive at its key, and one mail goes to the submitted address carrying the code of the stored account |
| Views.Resend | api_yamdb/api/views.py:91-106 | never writes; raises on a missing key or unknown user; for a known user it mails the stored account's code exactly when the submitted email equals the stored one, and otherwise answers the wrong-email message without mail |
| Views.Reconsider | api_yamdb/api/views.py:89-107 | raises `KeyError` when `username` has no errors; answers the invalid-request message when those errors do not mention `exists` |
| Views.SignUp | api_yamdb/api/views.py:68-107 | keeps the database valid, and every response it returns has status 200 |
| Views.ResendBranchUnreachable | api_yamdb/api/views.py:91 | the `username` errors of a refused sign-up never mention `exists` |
| Views.RefusedSignUpChangesNothing | api_yamdb/api/views.py:89-107 | a refused sign-up writes nothing and sends nothing; it raises `KeyError` when the username passed, else answers the invalid-request message |
| Views.MismatchedEmailRaises | api_yamdb/api/views.py:91 | a known username with another email raises `KeyError` instead of reaching the wrong-email answer |
| Views.MailOnlyOnValidSignUp | api_yamdb/api/views.py:83-87 | mail goes out only for an accepted payload, and then one mail to the submitted address |
| Views.ResendAnswersLikeRegister | api_yamdb/api/views.py:88-106 | a resend that mails answers exactly like a successful registration |
| Views.SignUpDeactivates | api_yamdb/api/views.py:74-76 | after a sign-up that mails, the obtained account is stored inactive |
| Views.GetToken | api_yamdb/api/views.py:114-128 | never writes or mails; 400 with the errors exactly for a bad payload; 201 with a token exactly for a known user and a good code; 404 otherwise |
| Views.UnknownUserLooksLikeWrongCode | api_yamdb/api/views.py:121-127 | an unknown user and a wrong code get the same 404 |
| Views.TokenLeavesAccountInactive | api_yamdb/api/views.py:118-126 | a token request after a sign-up leaves the new account inactive |
| Listing.LatestFirst | api_yamdb/reviews/models.py:142-143 | lists every key once, later publication dates first |
| Listing.ReviewsOfTitle | api_yamdb/reviews/models.py:142-143 | lists exactly the title's reviews, each once, newest first |
| Listing.CommentsOfReview | api_yamdb/reviews/models.py:161-162 | lists exactly the review's comments, each once, newest first |
| Manager.CreateUser | api_yamdb/users/models.py:17-32 | an empty email raises, and then an empty username; otherwise it succeeds exactly without a clash, storing an active, unprivileged account with the normalised email, given role and bio at the new key, with every other row of every table unchanged and validity kept |
| Manager.CreateUserSkipsValidation | api_yamdb/users/models.py:50-51 | `create_user` stores the username `me` and a role outside the choices, which model validation would refuse |
| Manager.BlankIdentifiersPass | api_yamdb/users/models.py:18-21 | emptiness is the only check on email and username: a single space passes |

## Left out

- JWT creation (`_generate_jwt_token`, the `token` property, `RefreshToken.for_user`) is crypto plus the wall clock. The access token is the opaque function `Env.accessToken`.
- `default_token_generator.make_token` and `check_token` are a library HMAC. They are the uninterpreted `Env.makeToken` and `Env.checkToken`, and nothing is assumed about how they relate.
- Django's `validate_email` is the predicate `Env.isEmail`. `normalize_email` is the function `normalize`.
- Delivering mail (`EmailMessage.send`) and its failures are left out. The model records the messages built.
- `serializer.save()` in `signup` is the abstract `Env.obtain`. Any writes it makes itself are not modelled, only the `user.save()` that follows. In the code it would raise, since the serializer defines no `create`.
- The `@api_view(['POST'])` method dispatch (405 for other methods) and the `if request.method == 'POST'` test are left out. `Views.SignUp` is the POST handler.
- `print(serializer.errors)` is console output.
- The viewsets (`api/views.py:23-66`) are routing and ORM plumbing: `get_queryset`, `perform_create` with its `review_id` keyword, and three viewsets that point at the account queryset. So are `mixins.py`, `urls.py`, both `admin.py` files, the commented-out `users/forms.py`, `TitleFilter`, and the data-import command.
- The `rating` field uses an annotation that is never computed, and averaging is numeric aggregation.
- The duplicate `User` and `MyUserManager` in `reviews/models.py:10-82` are never used.
- `create_superuser` calls `create_user` without its required `role` and `bio` arguments.
- `set_password` and the password column are left out.
- The checks that `ModelSerializer` derives from model fields are left out: slug syntax, `max_length`, the automatic uniqueness validator on `Category.slug` and `Genre.slug`, and the fields of `CustomUserSerializer`, `GenreSerializer`, `TitleSerializer` and `CommentSerializer`. Only the hooks written in `api/serializers.py` are modelled.
- A request body is a map from keys to strings, and a score is an integer or absent. Other JSON values, and parsing a score from a string, are left out.
- The surrogate-character check of `CharField` is left out. Dafny characters are Unicode scalar values, so no surrogate can occur.
- Error messages are the REST framework's English defaults. Localisation is left out. `Fields.Render` writes messages without the escaping of Python's `repr`. None of the messages involved holds a quote or a backslash.
- The database does not enforce column lengths or role choices on save. `Users.FullClean` states what model validation would check.
- `date_joined`, `last_login` and `pub_date` are set by the clock. The model takes timestamps as given integers.
- Views.SignUp: its own contract states only validity and the 200 status. What each branch does is stated by `Views.Register`, `Views.Reconsider` and the lemmas after `Views.SignUp`.

=== FILE: fields.dfy ===
/**
 * The slice of Django REST framework's field validation the serializers of
 * api/serializers.py rely on: `CharField` (required, not blank, stripped,
 * `max_length`, no NUL), `IntegerField` with bounds, the error details they
 * produce, and `str()` of a list of error details.
 */
module Fields {
  import opened Outcomes
  import opened Text

  /** One entry of `serializer.errors[field]`. */
  datatype ErrorDetail = ErrorDetail(message: string, code: string)

  /** `serializer.errors`: field name (or `non_field_errors`) to its error details. */
  type Errors = map<string, seq<ErrorDetail>>

  const NonFieldErrors: string := "non_field_errors"

  const Required: ErrorDetail := ErrorDetail("This field is required.", "required")
  const Blank: ErrorDetail := ErrorDetail("This field may not be blank.", "blank")
  const NullCharacters: ErrorDetail := ErrorDetail("Null characters are not allowed.", "null_characters_not_allowed")

  /** `serializers.ValidationError(message)` raised by hand: its code is `invalid`. */
  function Invalid(message: string): ErrorDetail {
    ErrorDetail(message, "invalid")
  }

  /** A numeral as Python's `str()` writes it. */
  function Decimal(n: nat): (r: string)
    ensures |r| > 0
    ensures forall i :: 0 <= i < |r| ==> '0' <= r[i] <= '9'
  {
    if n < 10 then [('0' as int + n) as char]
    else Decimal(n / 10) + [('0' as int + n % 10) as char]
  }

  function MaxLength(limit: nat): ErrorDetail {
    ErrorDetail("Ensure this field has no more than " + Decimal(limit) + " characters.", "max_length")
  }

  function MaxValue(limit: nat): ErrorDetail {
    ErrorDetail("Ensure this value is less than or equal to " + Decimal(limit) + ".", "max_value")
  }

  function MinValue(limit: nat): ErrorDetail {
    ErrorDetail("Ensure this value is greater than or equal to " + Decimal(limit) + ".", "min_value")
  }

  /**
   * `CharField(max_length=...)` run on `data.get(name)`: a missing value is
   * required, an empty or all-whitespace one is blank, anything else is
   * stripped and then checked by every validator, whose errors are all
   * reported.
   */
  function CharField(raw: Option<string>, maxLength: Option<nat>): (r: Result<string, seq<ErrorDetail>>)
    ensures raw.None? ==> r == Err([Required])
    ensures raw.Some? && AllSpace(raw.value) ==> r == Err([Blank])
    ensures r.Ok? <==>
              raw.Some? && !AllSpace(raw.value) &&
              (maxLength.Some? ==> |Strip(raw.value)| <= maxLength.value) && '\0' !in Strip(raw.value)
    ensures r.Ok? ==> r.value == Strip(raw.value) && r.value != []
    ensures r.Err? ==> r.error != []
    ensures r.Err? ==> forall i :: 0 <= i < |r.error| ==>
              r.error[i] == Required || r.error[i] == Blank || r.error[i] == NullCharacters ||
              (maxLength.Some? && r.error[i] == MaxLength(maxLength.value))
    ensures raw.Some? && !AllSpace(raw.value) && r.Err? ==>
              && Required !in r.error && Blank !in r.error
              && (NullCharacters in r.error <==> '\0' in Strip(raw.value))
              && (maxLength.Some? ==> (MaxLength(maxLength.value) in r.error <==> |Strip(raw.value)| > maxLength.value))
  {
    match raw
    case None => Err([Required])
    case Some(data) =>
      if data == "" || Strip(data) == "" then Err([Blank])
      else
        var value := Strip(data);
        var errors :=
          (if maxLength.Some? && |value| > maxLength.value then [MaxLength(maxLength.value)] else []) +
          (if '\0' in value then [NullCharacters] else []);
        if errors == [] then Ok(value) else Err(errors)
  }

  /**
   * `IntegerField(min_value=lo, max_value=hi)` on an integer value: a
   * missing value is required; the upper bound is checked before the lower.
   */
  function IntegerField(raw: Option<int>, lo: nat, hi: nat): (r: Result<int, seq<ErrorDetail>>)
    ensures r.Ok? <==> raw.Some? && lo <= raw.value <= hi
    ensures r.Ok? ==> r.value == raw.value
    ensures raw.None? ==> r == Err([Required])
    ensures raw.Some? && r.Err? ==>
              && Required !in r.error
              && (MaxValue(hi) in r.error <==> raw.value > hi)
              && (MinValue(lo) in r.error <==> raw.value < lo)
  {
    match raw
    case None => Err([Required])
    case Some(v) =>
      var errors := (if v > hi then [MaxValue(hi)] else []) + (if v < lo then [MinValue(lo)] else []);
      if errors == [] then Ok(v) else Err(errors)
  }

  /** The errors of two fields checked side by side: each field's entry is there exactly when it failed. */
  function Gather<T, U>(a: string, ra: Result<T, seq<ErrorDetail>>, b: string, rb: Result<U, seq<ErrorDetail>>): (e: Errors)
    requires a != b
    ensures e.Keys <= {a, b}
    ensures a in e <==> ra.Err?
    ensures b in e <==> rb.Err?
    ensures ra.Err? ==> e[a] == ra.error
    ensures rb.Err? ==> e[b] == rb.error
  {
    (if ra.Err? then map[a := ra.error] else map[]) + (if rb.Err? then map[b := rb.error] else map[])
  }

  /** `repr()` of an error detail. */
  function Repr(d: ErrorDetail): string {
    "ErrorDetail(string='" + d.message + "', code='" + d.code + "')"
  }

  function JoinReprs(ds: seq<ErrorDetail>): string {
    if |ds| == 0 then ""
    else if |ds| == 1 then Repr(ds[0])
    else Repr(ds[0]) + ", " + JoinReprs(ds[1..])
  }

  /** `str()` of a list of error details, as a view inspects it. */
  function Render(ds: seq<ErrorDetail>): string {
    "[" + JoinReprs(ds) + "]"
  }

  /** Neither the message nor the code of a detail holds the letter pair `ex`. */
  predicate Quiet(d: ErrorDetail) {
    NoPair(d.message, 'e', 'x') && NoPair(d.code, 'e', 'x')
  }

  /** The rendering of a quiet detail has no `ex` either: the punctuation around the parts cannot form one. */
  lemma {:induction false} ReprQuiet(d: ErrorDetail)
    requires Quiet(d)
    ensures NoPair(Repr(d), 'e', 'x')
  {
    var open, mid, close := "ErrorDetail(string='", "', code='", "')";
    MissingLetterNoPair(open, 'e', 'x');
    MissingLetterNoPair(mid, 'e', 'x');
    MissingLetterNoPair(close, 'e', 'x');
    NoPairConcat(open, d.message, 'e', 'x');
    NoPairConcat(open + d.message, mid, 'e', 'x');
    var front := open + d.message + mid;
    assert front[|front| - 1] == '\'';
    NoPairConcat(front, d.code, 'e', 'x');
    NoPairConcat(front + d.code, close, 'e', 'x');
  }

  lemma {:induction false} JoinQuiet(ds: seq<ErrorDetail>)
    requires forall i :: 0 <= i < |ds| ==> Quiet(ds[i])
    ensures NoPair(JoinReprs(ds), 'e', 'x')
  {
    if |ds| == 1 {
      ReprQuiet(ds[0]);
    } else if |ds| > 1 {
      ReprQuiet(ds[0]);
      JoinQuiet(ds[1..]);
      MissingLetterNoPair(", ", 'e', 'x');
      NoPairConcat(Repr(ds[0]), ", ", 'e', 'x');
      NoPairConcat(Repr(ds[0]) + ", ", JoinReprs(ds[1..]), 'e', 'x');
    }
  }

  /** `str()` of a list of quiet details never contains the word `exists`. */
  lemma {:induction false} RenderNeverSaysExists(ds: seq<ErrorDetail>)
    requires forall i :: 0 <= i < |ds| ==> Quiet(ds[i])
    ensures !Mentions(Render(ds), "exists")
  {
    JoinQuiet(ds);
    MissingLetterNoPair("[", 'e', 'x');
    MissingLetterNoPair("]", 'e', 'x');
    NoPairConcat("[", JoinReprs(ds), 'e', 'x');
    NoPairConcat("[" + JoinReprs(ds), "]", 'e', 'x');
    NoPairRulesOut(Render(ds), "exists");
  }

  /** A numeral holds digits only, so no letter. */
  lemma DecimalHasNoLetter(n: nat)
    ensures 'x' !in Decimal(n)
  {
  }

  lemma RequiredQuiet()
    ensures Quiet(Required)
  {
    MissingLetterNoPair(Required.message, 'e', 'x');
    MissingLetterNoPair(Required.code, 'e', 'x');
  }

  lemma BlankQuiet()
    ensures Quiet(Blank)
  {
    MissingLetterNoPair(Blank.message, 'e', 'x');
    MissingLetterNoPair(Blank.code, 'e', 'x');
  }

  lemma NullCharactersQuiet()
    ensures Quiet(NullCharacters)
  {
    NullCharactersMessageQuiet();
    NullCharactersCodeQuiet();
  }

  lemma NullCharactersMessageQuiet()
    ensures NoPair(NullCharacters.message, 'e', 'x')
  {
    MissingLetterNoPair(NullCharacters.message, 'e', 'x');
  }

  lemma NullCharactersCodeQuiet()
    ensures NoPair(NullCharacters.code, 'e', 'x')
  {
    MissingLetterNoPair(NullCharacters.code, 'e', 'x');
  }

  /** The code `max_length` holds an `x`, but after an `a`. */
  lemma MaxLengthQuiet(limit: nat)
    ensures Quiet(MaxLength(limit))
  {
    var head, tail := "Ensure this field has no more than ", " characters.";
    assert MaxLength(limit).message == head + Decimal(limit) + tail;
    DecimalHasNoLetter(limit);
    assert 'x' !in head && 'x' !in tail;
    MissingLetterNoPair(MaxLength(limit).message, 'e', 'x');
    assert NoPair("max_length", 'e', 'x');
  }

  /** Every error a `CharField` reports is quiet. */
  lemma CharFieldErrorsQuiet(raw: Option<string>, maxLength: Option<nat>)
    requires CharField(raw, maxLength).Err?
    ensures forall i :: 0 <= i < |CharField(raw, maxLength).error| ==> Quiet(CharField(raw, maxLength).error[i])
  {
    RequiredQuiet();
    BlankQuiet();
    NullCharactersQuiet();
    if maxLength.Some? {
      MaxLengthQuiet(maxLength.value);
    }
  }
}

=== FILE: listing.dfy ===
/**
 * The default ordering of reviews and comments, `ordering = ('-pub_date',)`:
 * a listing holds every row it selects exactly once, newest first. Rows
 * published at the same moment may come in any order.
 */
module Listing {
  import opened Store

  /** Rows earlier in `order` were published no earlier than rows after them. */
  predicate NewestFirst(order: seq<nat>, dates: map<nat, int>)
    requires forall i :: 0 <= i < |order| ==> order[i] in dates
  {
    forall i, j :: 0 <= i < j < |order| ==> dates[order[i]] >= dates[order[j]]
  }

  predicate Distinct(order: seq<nat>) {
    forall i, j :: 0 <= i < j < |order| ==> order[i] != order[j]
  }

  /** A key of `pool` whose date no other key of `pool` exceeds. */
  method Newest(pool: set<nat>, dates: map<nat, int>) returns (best: nat)
    requires pool != {} && pool <= dates.Keys
    ensures best in pool
    ensures forall x :: x in pool ==> dates[x] <= dates[best]
  {
    best :| best in pool;
    var rest := pool - {best};
    while rest != {}
      invariant rest <= pool && best in pool
      invariant forall x :: x in pool && x !in rest ==> dates[x] <= dates[best]
      decreases |rest|
    {
      var c :| c in rest;
      if dates[c] > dates[best] {
        best := c;
      }
      rest := rest - {c};
    }
  }

  /** Every key of `dates` once, newest first. */
  method LatestFirst(dates: map<nat, int>) returns (order: seq<nat>)
    ensures forall k :: k in order <==> k in dates
    ensures forall i :: 0 <= i < |order| ==> order[i] in dates
    ensures Distinct(order)
    ensures NewestFirst(order, dates)
  {
    order := [];
    var remaining := dates.Keys;
    while remaining != {}
      invariant remaining <= dates.Keys
      invariant forall k :: k in order <==> k in dates && k !in remaining
      invariant forall i :: 0 <= i < |order| ==> order[i] in dates
      invariant Distinct(order)
      invariant NewestFirst(order, dates)
      invariant forall i, x :: 0 <= i < |order| && x in remaining ==> dates[x] <= dates[order[i]]
      decreases |remaining|
    {
      var best := Newest(remaining, dates);
      order := order + [best];
      remaining := remaining - {best};
    }
  }

  /** The reviews of title `t` with their publication dates. */
  function ReviewDates(reviews: map<nat, Review>, t: nat): (m: map<nat, int>)
    ensures forall k :: k in m <==> k in reviews && reviews[k].title == t
    ensures forall k :: k in m ==> m[k] == reviews[k].pubDate
  {
    map k | k in reviews && reviews[k].title == t :: reviews[k].pubDate
  }

  /** The comments on review `rv` with their publication dates. */
  function CommentDates(comments: map<nat, Comment>, rv: nat): (m: map<nat, int>)
    ensures forall k :: k in m <==> k in comments && comments[k].review == rv
    ensures forall k :: k in m ==> m[k] == comments[k].pubDate
  {
    map k | k in comments && comments[k].review == rv :: comments[k].pubDate
  }

  /** `title.reviews.all()`: the title's reviews, each once, newest first. */
  method ReviewsOfTitle(db: Db, t: nat) returns (order: seq<nat>)
    ensures forall k :: k in order <==> k in db.reviews && db.reviews[k].title == t
    ensures Distinct(order)
    ensures forall i, j :: 0 <= i < j < |order| ==>
              order[i] in db.reviews && order[j] in db.reviews &&
              db.reviews[order[i]].pubDate >= db.reviews[order[j]].pubDate
  {
    var dates := ReviewDates(db.reviews, t);
    order := LatestFirst(dates);
  }

  /** `review.comments.all()`: the review's comments, each once, newest first. */
  method CommentsOfReview(db: Db, rv: nat) returns (order: seq<nat>)
    ensures forall k :: k in order <==> k in db.comments && db.comments[k].review == rv
    ensures Distinct(order)
    ensures forall i, j :: 0 <= i < j < |order| ==>
              order[i] in db.comments && order[j] in db.comments &&
              db.comments[order[i]].pubDate >= db.comments[order[j]].pubDate
  {
    var dates := CommentDates(db.comments, rv);
    order := LatestFirst(dates);
  }
}

=== FILE: manager.dfy ===
/**
 * `CustomUserManager.create_user` of users/models.py: both identifiers must
 * be non-empty; the account is built with every flag at its default, the
 * email normalised, and saved. `normalize_email` is the parameter
 * `normalize`; the primary key the database sequence hands out is `pk`.
 */
module Manager {
  import opened Outcomes
  import opened Users
  import opened Store

  const EmailRequiredMessage: string := "e-mail обязателен для регистрации!"
  const UsernameRequiredMessage: string := "username обязателен для регистрации!"

  /** The new row `create_user` would store. */
  function Candidate(pk: nat, email: string, username: string, role: string, bio: string, normalize: string -> string): Account {
    NewAccount(pk, normalize(email), username, role, bio)
  }

  function CreateUser(db: Db, pk: nat, email: string, username: string, role: string, bio: string, normalize: string -> string): (r: Result<Db, Fault>)
    ensures email == "" ==> r == Err(ValueError(EmailRequiredMessage))
    ensures email != "" && username == "" ==> r == Err(ValueError(UsernameRequiredMessage))
    ensures r.Ok? <==>
              email != "" && username != "" && pk !in db.users &&
              forall k :: k in db.users ==>
                db.users[k].username != username && db.users[k].email != normalize(email)
    ensures r.Ok? ==>
              && pk in r.value.users
              && r.value.users[pk].username == username
              && r.value.users[pk].email == normalize(email)
              && r.value.users[pk].role == role
              && r.value.users[pk].isActive
              && !r.value.users[pk].isAdmin && !r.value.users[pk].isStaff && !r.value.users[pk].isSuperuser
              && r.value.users.Keys == db.users.Keys + {pk}
              && (forall k :: k in db.users ==> r.value.users[k] == db.users[k])
    ensures r.Ok? ==> r.value == db.(users := db.users[pk := Candidate(pk, email, username, role, bio, normalize)])
    ensures r.Ok? && Valid(db) ==> Valid(r.value)
    ensures r.Err? && email != "" && username != "" ==> r.error.IntegrityError?
  {
    if email == "" then Err(ValueError(EmailRequiredMessage))
    else if username == "" then Err(ValueError(UsernameRequiredMessage))
    else if pk in db.users then Err(IntegrityError("id"))
    else SaveAccount(db, Candidate(pk, email, username, role, bio, normalize))
  }

  /**
   * Saving does not run field validators or check choices: `create_user`
   * stores the reserved username and a role outside the choices, giving a
   * row that model validation would refuse.
   */
  lemma CreateUserSkipsValidation(normalize: string -> string)
    ensures var db := Db(map[], map[], map[], map[], map[], map[]);
            var r := CreateUser(db, 1, "me@example.com", ReservedUsername, "superuser", "", normalize);
            r.Ok? && r.value.users[1].username == ReservedUsername && !FullClean(r.value.users[1])
  {
  }

  /** Emptiness is the only check on the identifiers: a single space passes for either. */
  lemma BlankIdentifiersPass(normalize: string -> string)
    ensures CreateUser(Db(map[], map[], map[], map[], map[], map[]), 0, " ", " ", User.Name(), "", normalize).Ok?
  {
  }
}

=== FILE: outcomes.dfy ===
/** Failure-carrying values shared by every module of the model. */
module Outcomes {

  /** A value that may be absent: Python's `None`, or a missing dictionary key. */
  datatype Option<+T> = None | Some(value: T)

  /** The outcome of a validator or a database write: a value, or the error it raises. */
  datatype Result<+T, +E> = Ok(value: T) | Err(error: E)

  /** Exceptions that escape the modelled code; none of them is caught by it. */
  datatype Fault =
    | ValueError(message: string)     // raised explicitly by create_user
    | IntegrityError(column: string)  // a primary-key, unique or foreign-key constraint refused a write
    | KeyError(key: string)           // a dictionary was indexed with a key it lacks
    | DoesNotExist                    // `objects.get(...)` matched no row

  /** `d.get(key)` on a Python dict. */
  function Get<K, V>(d: map<K, V>, key: K): (r: Option<V>)
    ensures r.Some? <==> key in d
    ensures r.Some? ==> r.value == d[key]
  {
    if key in d then Some(d[key]) else None
  }
}

=== FILE: permissions.dfy ===
/**
 * The three permission classes of api/permissions.py, each a pair of
 * predicates over the request (requester, method, URL keyword arguments)
 * and, for the object check, the object at hand.
 */
module Permissions {
  import opened Outcomes
  import opened Users

  /** `request.user`: Django's anonymous user, or an account. */
  datatype Requester = Anonymous | Authenticated(account: Account)

  /** What a permission check sees of a request: the user, `request.method`, and `view.kwargs`. */
  datatype Request = Request(user: Requester, verb: string, kwargs: map<string, string>)

  /** `view.kwargs.get('username') == 'me'`: the request addresses the requester's own record. */
  predicate OnSelfPath(rq: Request) {
    Get(rq.kwargs, "username") == Some(ReservedUsername)
  }

  /** `request.user == obj`: model instances are equal when their primary keys are; the anonymous user equals no account. */
  predicate IsAccount(u: Requester, a: Account) {
    u.Authenticated? && u.account.pk == a.pk
  }

  /** `request.user.role == name`, reached only behind `is_authenticated`. */
  predicate HasRole(u: Requester, name: string) {
    u.Authenticated? && u.account.role == name
  }

  predicate IsSuperuser(u: Requester) {
    u.Authenticated? && u.account.isSuperuser
  }

  /**
   * An independent ranking of requesters the policies can be read against:
   * 0 anonymous, 1 an account of any other role, 2 a moderator, 3 an
   * administrator by role or by the superuser flag.
   */
  function Rank(u: Requester): (n: nat)
    ensures n <= 3
    ensures n == 0 <==> u.Anonymous?
  {
    match u
    case Anonymous => 0
    case Authenticated(a) =>
      if a.role == Admin.Name() || a.isSuperuser then 3
      else if a.role == Moderator.Name() then 2
      else 1
  }

  // OnlyAdminPermission

  /** Administrators on every path, any account on the `me` path, nobody else. */
  function OnlyAdminHasPermission(rq: Request): (r: bool)
    ensures r <==> Rank(rq.user) == 3 || (Rank(rq.user) >= 1 && OnSelfPath(rq))
  {
    rq.user.Authenticated? &&
    (HasRole(rq.user, Admin.Name()) || IsSuperuser(rq.user) || OnSelfPath(rq))
  }

  /** On the `me` path the object must be the requester's own record, whatever the role; elsewhere anything goes. */
  function OnlyAdminHasObjectPermission(rq: Request, obj: Account): (r: bool)
    ensures OnSelfPath(rq) ==> (r <==> rq.user.Authenticated? && rq.user.account.pk == obj.pk)
    ensures !OnSelfPath(rq) ==> r
  {
    if OnSelfPath(rq) then IsAccount(rq.user, obj) else true
  }

  // IsAdminOrReadOnly

  /** Exactly the literal method `GET` reads, for everyone; any other method needs an administrator. */
  function AdminOrReadOnlyHasPermission(rq: Request): (r: bool)
    ensures r <==> rq.verb == "GET" || Rank(rq.user) == 3
  {
    if rq.verb == "GET" then true
    else rq.user.Authenticated? && (HasRole(rq.user, Admin.Name()) || IsSuperuser(rq.user))
  }

  // ReadOnlyOrAuthorOrAdmin

  /** `GET` for everyone, any other method for any account. */
  function AuthorOrAdminHasPermission(rq: Request): (r: bool)
    ensures r <==> rq.verb == "GET" || Rank(rq.user) >= 1
  {
    if rq.verb == "GET" then true else rq.user.Authenticated?
  }

  /**
   * `author` is `obj.author` of the review or comment at hand. Any other
   * method than `GET` needs a moderator, an administrator, or the author.
   */
  function AuthorOrAdminHasObjectPermission(rq: Request, author: Account): (r: bool)
    ensures r <==> rq.verb == "GET" || Rank(rq.user) >= 2 || IsAccount(rq.user, author)
  {
    if rq.verb == "GET" then true
    else if rq.user.Authenticated? &&
            (rq.user.account.role in {Admin.Name(), Moderator.Name()} || IsSuperuser(rq.user)) then true
    else rq.user.Authenticated? && IsAccount(rq.user, author)
  }

  /** `OnlyAdminPermission.has_permission` denies the anonymous user on every path. */
  lemma OnlyAdminDeniesAnonymous(rq: Request)
    requires rq.user.Anonymous?
    ensures !OnlyAdminHasPermission(rq)
  {
  }

  /** Through the `me` path both checks together reach only the requester's own record. */
  lemma SelfPathReachesOnlyOwnRecord(rq: Request, obj: Account)
    requires OnSelfPath(rq)
    requires OnlyAdminHasPermission(rq) && OnlyAdminHasObjectPermission(rq, obj)
    ensures rq.user.Authenticated? && rq.user.account.pk == obj.pk
  {
  }

  /** `IsAdminOrReadOnly` admits `GET` from everyone, the anonymous user included. */
  lemma AdminOrReadOnlyAdmitsGet(rq: Request)
    requires rq.verb == "GET"
    ensures AdminOrReadOnlyHasPermission(rq)
  {
  }

  /** Only the literal `GET` reads: `HEAD`, `OPTIONS` and a lower-case `get` are refused to the anonymous user. */
  lemma OnlyLiteralGetReads(kwargs: map<string, string>)
    ensures !AdminOrReadOnlyHasPermission(Request(Anonymous, "HEAD", kwargs))
    ensures !AdminOrReadOnlyHasPermission(Request(Anonymous, "OPTIONS", kwargs))
    ensures !AdminOrReadOnlyHasPermission(Request(Anonymous, "get", kwargs))
  {
  }

  /** A moderator, and an account of plain role, cannot write through `IsAdminOrReadOnly`. */
  lemma AdminOrReadOnlyDeniesModerator(a: Account, verb: string, kwargs: map<string, string>)
    requires verb != "GET" && !a.isSuperuser
    requires a.role == Moderator.Name() || a.role == User.Name()
    ensures !AdminOrReadOnlyHasPermission(Request(Authenticated(a), verb, kwargs))
  {
  }

  /**
   * Whoever `IsAdminOrReadOnly` lets write, `ReadOnlyOrAuthorOrAdmin` lets
   * change any object, whoever wrote it.
   */
  lemma AdminWritersMayChangeAnyObject(rq: Request, author: Account)
    requires AdminOrReadOnlyHasPermission(rq)
    ensures AuthorOrAdminHasPermission(rq)
    ensures AuthorOrAdminHasObjectPermission(rq, author)
  {
  }

  /**
   * The `is_admin` flag, the one `has_perm` reports, is consulted by none
   * of the three classes: with a plain role and no superuser flag it opens
   * no write.
   */
  lemma AdminFlagGrantsNoWrite(a: Account, verb: string, kwargs: map<string, string>, author: Account)
    requires a.isAdmin && a.role == User.Name() && !a.isSuperuser
    requires verb != "GET" && Get(kwargs, "username") != Some(ReservedUsername) && author.pk != a.pk
    ensures HasPerm(a, "reviews.change_review")
    ensures !OnlyAdminHasPermission(Request(Authenticated(a), verb, kwargs))
    ensures !AdminOrReadOnlyHasPermission(Request(Authenticated(a), verb, kwargs))
    ensures !AuthorOrAdminHasObjectPermission(Request(Authenticated(a), verb, kwargs), author)
  {
  }
}

=== FILE: serializers.dfy ===
/**
 * The validation rules of the serializers in api/serializers.py: field
 * checks, `validate_<field>` hooks, and `validate`, put together the way
 * `is_valid()` runs them. A request body is a map from keys to strings
 * (scores to integers); the database is the one of the `Store` module.
 */
module Serializers {
  import opened Outcomes
  import opened Text
  import opened Fields
  import opened Users
  import opened Store
  import Validators

  // SignUpSerializer

  const UsernameMaxLength: nat := 150
  const EmailMaxLength: nat := 254

  const ForbiddenUsernameMessage: string := "Использование username -me- запрещено."
  const WrongEmailMessage: string := "Неверный e-mail."

  /**
   * The `validate_email` hook surfaces the error of Django's own email
   * validator: its `except` names the REST framework's error class, which
   * Django's validator does not raise.
   */
  const InvalidEmail: ErrorDetail := ErrorDetail("Enter a valid email address.", "invalid")

  /** The validated sign-up payload. */
  datatype SignUpData = SignUpData(username: string, email: string)

  /**
   * `validate_username`: refuses `me`. `ASCIIUsernameValidator(value)` only
   * builds a validator object and never runs it, so nothing else is refused.
   */
  function SignUpValidateUsername(value: string): (r: Result<string, ErrorDetail>)
    ensures r.Err? <==> ValidateUsername(value).Err?
    ensures r.Ok? ==> r.value == value
  {
    if value == ReservedUsername then Err(Invalid(ForbiddenUsernameMessage)) else Ok(value)
  }

  /** `validate_email`, with Django's `validate_email` as the predicate `isEmail`. */
  function SignUpValidateEmail(value: string, isEmail: string -> bool): (r: Result<string, ErrorDetail>)
    ensures r.Err? <==> !isEmail(value)
    ensures r.Ok? ==> r.value == value
  {
    if isEmail(value) then Ok(value) else Err(InvalidEmail)
  }

  /** The `username` field: `CharField(max_length=150)`, then its hook. */
  function SignUpUsername(data: map<string, string>): Result<string, seq<ErrorDetail>> {
    match CharField(Get(data, "username"), Some(UsernameMaxLength))
    case Err(e) => Err(e)
    case Ok(v) =>
      match SignUpValidateUsername(v)
      case Err(d) => Err([d])
      case Ok(v) => Ok(v)
  }

  /** The `email` field: `CharField(max_length=254)`, then its hook. */
  function SignUpEmail(data: map<string, string>, isEmail: string -> bool): Result<string, seq<ErrorDetail>> {
    match CharField(Get(data, "email"), Some(EmailMaxLength))
    case Err(e) => Err(e)
    case Ok(v) =>
      match SignUpValidateEmail(v, isEmail)
      case Err(d) => Err([d])
      case Ok(v) => Ok(v)
  }

  /** A submitted text field, once stripped, is present, not blank, within `limit`, and free of NUL. */
  predicate Acceptable(data: map<string, string>, key: string, limit: nat) {
    key in data && !AllSpace(data[key]) && |Strip(data[key])| <= limit && '\0' !in Strip(data[key])
  }

  /** What the field stage of `SignUpSerializer` accepts, stated over the raw payload. */
  predicate UsernameAccepted(data: map<string, string>) {
    Acceptable(data, "username", UsernameMaxLength) && Strip(data["username"]) != ReservedUsername
  }

  predicate EmailAccepted(data: map<string, string>, isEmail: string -> bool) {
    Acceptable(data, "email", EmailMaxLength) && isEmail(Strip(data["email"]))
  }

  /** Some account holds `username` under another email than `email`. */
  predicate EmailMismatch(users: map<nat, Account>, username: string, email: string) {
    exists k | k in users :: users[k].username == username && users[k].email != email
  }

  /**
   * `validate`: the payload passes unchanged unless an account holds its
   * username under another email.
   */
  function SignUpValidate(users: map<nat, Account>, d: SignUpData): (r: Result<SignUpData, Errors>)
    requires UniqueOn(users, Username)
    ensures r.Err? <==> EmailMismatch(users, d.username, d.email)
    ensures r.Ok? ==> r.value == d
    ensures r.Err? ==> r.error == map[NonFieldErrors := [Invalid(WrongEmailMessage)]]
  {
    match FindByUsername(users, d.username)
    case None => Ok(d)
    case Some(a) =>
      if a.email == d.email then Ok(d)
      else Err(map[NonFieldErrors := [Invalid(WrongEmailMessage)]])
  }

  /**
   * `SignUpSerializer(data=...).is_valid()`: both fields are checked and
   * their errors reported together; `validate` runs only when both passed.
   */
  function SignUpIsValid(users: map<nat, Account>, data: map<string, string>, isEmail: string -> bool): (r: Result<SignUpData, Errors>)
    requires UniqueOn(users, Username)
    ensures r.Ok? <==>
              UsernameAccepted(data) && EmailAccepted(data, isEmail) &&
              !EmailMismatch(users, Strip(data["username"]), Strip(data["email"]))
    ensures r.Ok? ==> r.value == SignUpData(Strip(data["username"]), Strip(data["email"]))
    ensures r.Err? ==> ("username" in r.error <==> !UsernameAccepted(data))
    ensures r.Err? ==> ("email" in r.error <==> !EmailAccepted(data, isEmail))
    ensures r.Err? ==> (NonFieldErrors in r.error <==> UsernameAccepted(data) && EmailAccepted(data, isEmail))
    ensures r.Err? && "username" in r.error ==> r.error["username"] == SignUpUsername(data).error
    ensures r.Err? ==> r.error.Keys <= {"username", "email", NonFieldErrors}
    ensures r.Err? && "email" in r.error ==> r.error["email"] == SignUpEmail(data, isEmail).error
    ensures r.Err? && NonFieldErrors in r.error ==> r.error[NonFieldErrors] == [Invalid(WrongEmailMessage)]
  {
    var u := SignUpUsername(data);
    var e := SignUpEmail(data, isEmail);
    if u.Err? || e.Err? then
      Err(Gather("username", u, "email", e))
    else
      SignUpValidate(users, SignUpData(u.value, e.value))
  }

  /** None of the errors the `username` field or its hook report holds the letter pair `ex`. */
  lemma {:induction false} UsernameErrorsQuiet(data: map<string, string>)
    requires SignUpUsername(data).Err?
    ensures forall i :: 0 <= i < |SignUpUsername(data).error| ==> Quiet(SignUpUsername(data).error[i])
  {
    var c := CharField(Get(data, "username"), Some(UsernameMaxLength));
    if c.Err? {
      CharFieldErrorsQuiet(Get(data, "username"), Some(UsernameMaxLength));
    } else {
      assert SignUpUsername(data).error == [Invalid(ForbiddenUsernameMessage)];
      ForbiddenUsernameQuiet();
    }
  }

  lemma ForbiddenUsernameQuiet()
    ensures Quiet(Invalid(ForbiddenUsernameMessage))
  {
    MissingLetterNoPair(ForbiddenUsernameMessage, 'e', 'x');
    MissingLetterNoPair("invalid", 'e', 'x');
  }

  /** Sign-up refuses, among stripped usernames, exactly the one users/validators.py refuses. */
  lemma SignUpUsernameAgreesWithModel(data: map<string, string>)
    requires Acceptable(data, "username", UsernameMaxLength)
    ensures SignUpUsername(data).Ok? <==> ValidateUsername(Strip(data["username"])).Ok?
  {
  }

  // GetTokenSerializer

  const TokenFieldMaxLength: nat := 256

  datatype TokenRequest = TokenRequest(username: string, confirmationCode: string)

  /** `GetTokenSerializer(data=...).is_valid()`: two `CharField(max_length=256)`s and nothing more. */
  function GetTokenIsValid(data: map<string, string>): (r: Result<TokenRequest, Errors>)
    ensures r.Ok? <==>
              Acceptable(data, "username", TokenFieldMaxLength) && Acceptable(data, "confirmation_code", TokenFieldMaxLength)
    ensures r.Ok? ==> r.value == TokenRequest(Strip(data["username"]), Strip(data["confirmation_code"]))
    ensures r.Err? ==> ("username" in r.error <==> !Acceptable(data, "username", TokenFieldMaxLength))
    ensures r.Err? ==> ("confirmation_code" in r.error <==> !Acceptable(data, "confirmation_code", TokenFieldMaxLength))
    ensures r.Err? ==> r.error.Keys <= {"username", "confirmation_code"}
    ensures r.Err? && "username" in r.error ==>
              r.error["username"] == CharField(Get(data, "username"), Some(TokenFieldMaxLength)).error
    ensures r.Err? && "confirmation_code" in r.error ==>
              r.error["confirmation_code"] == CharField(Get(data, "confirmation_code"), Some(TokenFieldMaxLength)).error
  {
    var u := CharField(Get(data, "username"), Some(TokenFieldMaxLength));
    var c := CharField(Get(data, "confirmation_code"), Some(TokenFieldMaxLength));
    if u.Err? || c.Err? then
      Err(Gather("username", u, "confirmation_code", c))
    else
      Ok(TokenRequest(u.value, c.value))
  }

  // ReviewSerializer

  const ScoreMin: nat := 1
  const ScoreMax: nat := 10
  const DuplicateReviewMessage: string := "Вы уже оставляли отзыв к этому произведению."

  /** The writable part of a review payload: absent keys are `None`. */
  datatype ReviewInput = ReviewInput(text: Option<string>, score: Option<int>)

  /** The `score` field: `IntegerField(min_value=1, max_value=10)`. */
  function ScoreField(raw: Option<int>): (r: Result<int, seq<ErrorDetail>>)
    ensures r.Ok? <==> raw.Some? && ScoreInRange(raw.value)
    ensures r.Ok? ==> r.value == raw.value
  {
    IntegerField(raw, ScoreMin, ScoreMax)
  }

  /** The author already has a review of the title. */
  predicate HasReviewed(reviews: map<nat, Review>, author: nat, title: nat) {
    exists k | k in reviews :: reviews[k].author == author && reviews[k].title == title
  }

  /** `ReviewSerializer.validate`: a second review of one title by one author is refused unless the method is `PATCH`. */
  function ReviewValidate(reviews: map<nat, Review>, title: nat, author: nat, verb: string, input: ReviewInput): (r: Result<ReviewInput, Errors>)
    ensures r.Err? <==> HasReviewed(reviews, author, title) && verb != "PATCH"
    ensures r.Ok? ==> r.value == input
    ensures r.Err? ==> r.error == map[NonFieldErrors := [Invalid(DuplicateReviewMessage)]]
  {
    if HasReviewed(reviews, author, title) && verb != "PATCH" then
      Err(map[NonFieldErrors := [Invalid(DuplicateReviewMessage)]])
    else
      Ok(input)
  }

  /** The `text` field reports errors: it is checked (not a `PATCH` without it) and is missing, blank or holds NUL. */
  predicate TextRefused(verb: string, input: ReviewInput) {
    !(verb == "PATCH" && input.text.None?) &&
    !(input.text.Some? && !AllSpace(input.text.value) && '\0' !in Strip(input.text.value))
  }

  /** The `score` field reports errors: it is checked (not a `PATCH` without it) and is missing or outside 1..10. */
  predicate ScoreRefused(verb: string, input: ReviewInput) {
    !(verb == "PATCH" && input.score.None?) && !(input.score.Some? && ScoreInRange(input.score.value))
  }

  /** The `text` field of a review payload; a `PATCH` without it leaves it out unchecked. */
  function ReviewText(verb: string, input: ReviewInput): (r: Result<Option<string>, seq<ErrorDetail>>)
    ensures r.Err? <==> TextRefused(verb, input)
    ensures r.Err? ==> r.error == CharField(input.text, None).error
    ensures r.Ok? ==> r.value == if input.text.Some? then Some(Strip(input.text.value)) else None
  {
    if verb == "PATCH" && input.text.None? then Ok(None)
    else
      match CharField(input.text, None)
      case Err(e) => Err(e)
      case Ok(v) => Ok(Some(v))
  }

  /** The `score` field of a review payload; a `PATCH` without it leaves it out unchecked. */
  function ReviewScore(verb: string, input: ReviewInput): (r: Result<Option<int>, seq<ErrorDetail>>)
    ensures r.Err? <==> ScoreRefused(verb, input)
    ensures r.Err? ==> r.error == ScoreField(input.score).error
    ensures r.Ok? ==> r.value == input.score
  {
    if verb == "PATCH" && input.score.None? then Ok(None)
    else
      match ScoreField(input.score)
      case Err(e) => Err(e)
      case Ok(v) => Ok(Some(v))
  }

  /**
   * `ReviewSerializer(data=..., partial=...).is_valid()` for the author
   * `author` on the title of the URL. A `PATCH` is partial: a missing field
   * is not checked. `text` is the model's `TextField`, required and not blank.
   */
  function ReviewIsValid(reviews: map<nat, Review>, title: nat, author: nat, verb: string, input: ReviewInput): (r: Result<ReviewInput, Errors>)
    ensures r.Ok? <==>
              ((verb == "PATCH" && input.text.None?) ||
               (input.text.Some? && !AllSpace(input.text.value) && '\0' !in Strip(input.text.value))) &&
              ((verb == "PATCH" && input.score.None?) || (input.score.Some? && ScoreInRange(input.score.value))) &&
              !(HasReviewed(reviews, author, title) && verb != "PATCH")
    ensures r.Ok? ==> r.value.score == input.score
    ensures r.Ok? ==> r.value.text == if input.text.Some? then Some(Strip(input.text.value)) else None
    ensures r.Err? ==> r.error.Keys <= {"text", "score", NonFieldErrors}
    ensures r.Err? ==> ("text" in r.error <==> TextRefused(verb, input))
    ensures r.Err? ==> ("score" in r.error <==> ScoreRefused(verb, input))
    ensures r.Err? && "text" in r.error ==> r.error["text"] == CharField(input.text, None).error
    ensures r.Err? && "score" in r.error ==> r.error["score"] == ScoreField(input.score).error
    ensures r.Err? ==>
              (NonFieldErrors in r.error <==>
                 !TextRefused(verb, input) && !ScoreRefused(verb, input) && HasReviewed(reviews, author, title) && verb != "PATCH")
    ensures r.Err? && NonFieldErrors in r.error ==> r.error[NonFieldErrors] == [Invalid(DuplicateReviewMessage)]
  {
    var text := ReviewText(verb, input);
    var score := ReviewScore(verb, input);
    if text.Err? || score.Err? then
      Err(Gather("text", text, "score", score))
    else
      ReviewValidate(reviews, title, author, verb, ReviewInput(text.value, score.value))
  }

  /** No author has two reviews of one title. */
  predicate OneReviewPerPair(reviews: map<nat, Review>) {
    forall j, k :: j in reviews && k in reviews && j != k ==>
      !(reviews[j].author == reviews[k].author && reviews[j].title == reviews[k].title)
  }

  /**
   * A review created through a validated `POST` keeps one review per author
   * and title; the database itself has no such constraint.
   */
  lemma {:induction false} ValidatedPostKeepsOneReviewPerPair(
    db: Db, title: nat, author: nat, input: ReviewInput, pk: nat, text: string, score: int, pubDate: int)
    requires OneReviewPerPair(db.reviews)
    requires ReviewIsValid(db.reviews, title, author, "POST", input).Ok?
    requires InsertReview(db, pk, Review(title, text, author, score, pubDate)).Ok?
    ensures OneReviewPerPair(InsertReview(db, pk, Review(title, text, author, score, pubDate)).value.reviews)
  {
    var after := InsertReview(db, pk, Review(title, text, author, score, pubDate)).value.reviews;
    assert !HasReviewed(db.reviews, author, title);
    forall j, k | j in after && k in after && j != k
      ensures !(after[j].author == after[k].author && after[j].title == after[k].title)
    {
      if j == pk {
        assert k in db.reviews && after[k] == db.reviews[k];
      } else if k == pk {
        assert j in db.reviews && after[j] == db.reviews[j];
      } else {
        assert after[j] == db.reviews[j] && after[k] == db.reviews[k];
      }
    }
  }

  /**
   * A `PUT` of an author's own existing review is refused: the duplicate
   * check does not exclude the review being updated.
   */
  lemma PutOnOwnReviewRefused(reviews: map<nat, Review>, k: nat, input: ReviewInput)
    requires k in reviews
    ensures ReviewIsValid(reviews, reviews[k].title, reviews[k].author, "PUT", input).Err?
  {
    assert HasReviewed(reviews, reviews[k].author, reviews[k].title);
  }

  /** A `PATCH` never meets the duplicate check: an empty payload passes whatever the author wrote before. */
  lemma PatchSkipsDuplicateCheck(reviews: map<nat, Review>, title: nat, author: nat)
    ensures ReviewIsValid(reviews, title, author, "PATCH", ReviewInput(None, None)) == Ok(ReviewInput(None, None))
  {
  }

  // CategorySerializer and TitleReadOnlySerializer

  /** `CategorySerializer.validate_slug`: refuses any slug a category already has. */
  function CategoryValidateSlug(value: string, categories: map<nat, Category>): (r: Result<string, ErrorDetail>)
    ensures r.Err? <==> exists k :: k in categories && categories[k].slug == value
    ensures r.Ok? ==> r.value == value
  {
    if Validators.SlugTaken(categories, value) then Err(Invalid(Validators.SlugTakenMessage)) else Ok(value)
  }

  /** The hook and `category_slug_validator` refuse the same slugs, with the same message. */
  lemma CategoryHookMatchesValidator(value: string, categories: map<nat, Category>)
    ensures CategoryValidateSlug(value, categories).Err? <==> Validators.CategorySlugValidator(value, categories).Err?
    ensures CategoryValidateSlug(value, categories).Err? ==>
              CategoryValidateSlug(value, categories).error.message == Validators.CategorySlugValidator(value, categories).error
  {
  }

  /** Updating a category with its own unchanged slug is refused: the hook does not exclude the instance. */
  lemma OwnSlugRefusedOnUpdate(categories: map<nat, Category>, k: nat)
    requires k in categories
    ensures CategoryValidateSlug(categories[k].slug, categories).Err?
  {
  }

  /** `TitleReadOnlySerializer.validate_year`: only years after the current one are refused. */
  function TitleValidateYear(value: int, currentYear: int): (r: Result<int, ErrorDetail>)
    ensures r.Err? <==> value > currentYear
    ensures r.Ok? ==> r.value == value
  {
    if value > currentYear then Err(Invalid(Validators.FutureYearMessage)) else Ok(value)
  }

  /** The serializer hook accepts exactly what `validate_year` accepts, so a negative year passes it. */
  lemma TitleHookMatchesModelValidator(value: int, currentYear: int)
    ensures TitleValidateYear(value, currentYear).Ok? <==> Validators.ValidateYear(value, currentYear).Ok?
    ensures value < 0 && value <= currentYear ==>
              TitleValidateYear(value, currentYear).Ok? && Validators.TitleYearValidator(value, currentYear).Err?
  {
  }
}

=== FILE: store.dfy ===
/**
 * The tables of reviews/models.py and users/models.py as maps from primary
 * key to row, the constraints the database enforces on them, and the
 * writes whose semantics the models declare: `save()` of an account,
 * inserts, and deletes with their `on_delete` consequences.
 */
module Store {
  import opened Outcomes
  import opened Users

  datatype Category = Category(name: string, slug: string)

  datatype Genre = Genre(name: string, slug: string)

  /** `category` is a nullable foreign key; `genres` is the many-to-many set of genre keys. */
  datatype Title = Title(name: string, year: int, category: Option<nat>, genres: set<nat>, description: Option<string>)

  /** `pubDate` is the `auto_now_add` timestamp, as a number. */
  datatype Review = Review(title: nat, text: string, author: nat, score: int, pubDate: int)

  datatype Comment = Comment(review: nat, text: string, author: nat, pubDate: int)

  datatype Db = Db(
    users: map<nat, Account>,
    categories: map<nat, Category>,
    genres: map<nat, Genre>,
    titles: map<nat, Title>,
    reviews: map<nat, Review>,
    comments: map<nat, Comment>)

  /** The `default=0` declared on `Review.score`. */
  const DefaultScore: int := 0

  /** `MinValueValidator(1)` and `MaxValueValidator(10)` on `Review.score`. */
  predicate ScoreInRange(score: int) {
    1 <= score <= 10
  }

  /** The declared default of the score fails the score's own validators. */
  lemma DefaultScoreOutOfRange()
    ensures !ScoreInRange(DefaultScore)
  {
  }

  /** No two rows of `m` agree on `key`: a `unique=True` column. */
  predicate UniqueOn<T, K(==)>(m: map<nat, T>, key: T -> K) {
    forall j, k :: j in m && k in m && key(m[j]) == key(m[k]) ==> j == k
  }

  /** A table keeps a unique column unique when rows are dropped. */
  lemma UniqueOnSubmap<T, K>(m: map<nat, T>, n: map<nat, T>, key: T -> K)
    requires UniqueOn(m, key)
    requires forall k :: k in n ==> k in m && n[k] == m[k]
    ensures UniqueOn(n, key)
  {
  }

  /** Overwriting one row keeps a column unique when no other row holds the new value. */
  lemma UniqueAfterUpdate<K>(users: map<nat, Account>, a: Account, key: Account -> K)
    requires UniqueOn(users, key)
    requires forall k :: k in users && k != a.pk ==> key(users[k]) != key(a)
    ensures UniqueOn(users[a.pk := a], key)
  {
  }

  /**
   * A delete that only drops rows keeps the database valid when every
   * surviving row's foreign keys name surviving rows.
   */
  lemma SubDbValid(db: Db, next: Db)
    requires Valid(db)
    requires next.categories == db.categories && next.genres == db.genres
    requires forall k :: k in next.users ==> k in db.users && next.users[k] == db.users[k]
    requires forall k :: k in next.titles ==> k in db.titles && next.titles[k] == db.titles[k]
    requires forall k :: k in next.reviews ==>
               k in db.reviews && next.reviews[k] == db.reviews[k] &&
               next.reviews[k].title in next.titles && next.reviews[k].author in next.users
    requires forall k :: k in next.comments ==>
               k in db.comments && next.comments[k] == db.comments[k] &&
               next.comments[k].review in next.reviews && next.comments[k].author in next.users
    ensures Valid(next)
  {
    UniqueOnSubmap(db.users, next.users, Username);
    UniqueOnSubmap(db.users, next.users, Email);
  }

  function Username(a: Account): string { a.username }
  function Email(a: Account): string { a.email }
  function CategorySlug(c: Category): string { c.slug }
  function GenreSlug(g: Genre): string { g.slug }

  /** Every account row carries its own primary key. */
  predicate KeyedByPk(users: map<nat, Account>) {
    forall k :: k in users ==> users[k].pk == k
  }

  /** The unique columns: username and email of accounts, slug of categories and of genres. */
  predicate UniqueColumns(db: Db) {
    && UniqueOn(db.users, Username)
    && UniqueOn(db.users, Email)
    && UniqueOn(db.categories, CategorySlug)
    && UniqueOn(db.genres, GenreSlug)
  }

  /** Every foreign key names an existing row. */
  predicate ReferencesResolve(db: Db) {
    && (forall t :: t in db.titles && db.titles[t].category.Some? ==> db.titles[t].category.value in db.categories)
    && (forall t :: t in db.titles ==> db.titles[t].genres <= db.genres.Keys)
    && (forall r :: r in db.reviews ==> db.reviews[r].title in db.titles && db.reviews[r].author in db.users)
    && (forall c :: c in db.comments ==> db.comments[c].review in db.reviews && db.comments[c].author in db.users)
  }

  /** What the database guarantees of its contents at every commit. */
  predicate Valid(db: Db) {
    KeyedByPk(db.users) && UniqueColumns(db) && ReferencesResolve(db)
  }

  /** The empty database. */
  lemma EmptyIsValid()
    ensures Valid(Db(map[], map[], map[], map[], map[], map[]))
  {
  }

  /**
   * `CustomUser.objects.get(username=name)`, returning nothing where
   * `filter(username=name).exists()` is false.
   */
  function FindByUsername(users: map<nat, Account>, name: string): (r: Option<Account>)
    requires UniqueOn(users, Username)
    ensures r.None? <==> forall k :: k in users ==> users[k].username != name
    ensures r.Some? ==> r.value.username == name && exists k :: k in users && users[k] == r.value
  {
    if exists k | k in users :: users[k].username == name then
      var k :| k in users && users[k].username == name;
      Some(users[k])
    else
      None
  }

  /** Another account than `a` already holds `a`'s username or email. */
  predicate Clashes(users: map<nat, Account>, a: Account) {
    exists k | k in users :: k != a.pk && (users[k].username == a.username || users[k].email == a.email)
  }

  /**
   * `save()` of an account instance: an UPDATE of the row with its primary
   * key when there is one, an INSERT otherwise; either way the unique
   * constraints on username and email refuse a clash with another row.
   */
  function SaveAccount(db: Db, a: Account): (r: Result<Db, Fault>)
    ensures r.Err? <==> Clashes(db.users, a)
    ensures r.Ok? ==> r.value == db.(users := db.users[a.pk := a])
    ensures r.Ok? && Valid(db) ==> Valid(r.value)
  {
    if Clashes(db.users, a) then Err(IntegrityError("username or email"))
    else
      var next := db.(users := db.users[a.pk := a]);
      assert Valid(db) ==> Valid(next) by {
        if Valid(db) {
          UniqueAfterUpdate(db.users, a, Username);
          UniqueAfterUpdate(db.users, a, Email);
        }
      }
      Ok(next)
  }

  /**
   * `Category.objects.create(...)` with primary key `pk`: refused by the
   * primary key or by the unique slug.
   */
  function InsertCategory(db: Db, pk: nat, c: Category): (r: Result<Db, Fault>)
    ensures r.Err? <==> pk in db.categories || exists k :: k in db.categories && db.categories[k].slug == c.slug
    ensures r.Ok? ==> r.value == db.(categories := db.categories[pk := c])
    ensures r.Ok? && Valid(db) ==> Valid(r.value)
  {
    if pk in db.categories then Err(IntegrityError("pk"))
    else if exists k | k in db.categories :: db.categories[k].slug == c.slug then Err(IntegrityError("slug"))
    else Ok(db.(categories := db.categories[pk := c]))
  }

  /**
   * `Review.objects.create(...)` with primary key `pk`: refused by the
   * primary key or by a foreign key naming no row. Nothing in the table
   * stops a second review by the same author of the same title, and the
   * score validators do not run.
   */
  function InsertReview(db: Db, pk: nat, rv: Review): (r: Result<Db, Fault>)
    ensures r.Err? <==> pk in db.reviews || rv.title !in db.titles || rv.author !in db.users
    ensures r.Ok? ==> r.value == db.(reviews := db.reviews[pk := rv])
    ensures r.Ok? && Valid(db) ==> Valid(r.value)
  {
    if pk in db.reviews then Err(IntegrityError("pk"))
    else if rv.title !in db.titles then Err(IntegrityError("title"))
    else if rv.author !in db.users then Err(IntegrityError("author"))
    else Ok(db.(reviews := db.reviews[pk := rv]))
  }

  /** The review `rv` a comment hangs on existed and did not survive: the cascade takes the comment too. */
  predicate Orphaned(rv: nat, before: map<nat, Review>, after: map<nat, Review>) {
    rv in before && rv !in after
  }

  /**
   * Deleting the title `t`: its reviews go (`on_delete=CASCADE`), and with
   * them their comments (`CASCADE` again). Nothing else changes.
   */
  function DeleteTitle(db: Db, t: nat): (r: Db)
    ensures r.titles.Keys == db.titles.Keys - {t}
    ensures forall k :: k in r.titles ==> r.titles[k] == db.titles[k]
    ensures forall k :: k in r.reviews <==> k in db.reviews && db.reviews[k].title != t
    ensures forall k :: k in r.reviews ==> r.reviews[k] == db.reviews[k]
    ensures forall k :: k in r.comments <==>
              k in db.comments &&
              !(db.comments[k].review in db.reviews && db.reviews[db.comments[k].review].title == t)
    ensures forall k :: k in r.comments ==> r.comments[k] == db.comments[k]
    ensures r.users == db.users && r.categories == db.categories && r.genres == db.genres
  {
    var reviews := map k | k in db.reviews && db.reviews[k].title != t :: db.reviews[k];
    db.(titles := db.titles - {t},
        reviews := reviews,
        comments := map k | k in db.comments && !Orphaned(db.comments[k].review, db.reviews, reviews)
                          :: db.comments[k])
  }

  /** Deleting the review `rv` removes exactly it and the comments on it. */
  function DeleteReview(db: Db, rv: nat): (r: Db)
    ensures r.reviews.Keys == db.reviews.Keys - {rv}
    ensures forall k :: k in r.reviews ==> r.reviews[k] == db.reviews[k]
    ensures forall k :: k in r.comments <==> k in db.comments && db.comments[k].review != rv
    ensures forall k :: k in r.comments ==> r.comments[k] == db.comments[k]
    ensures r.users == db.users && r.titles == db.titles
    ensures r.categories == db.categories && r.genres == db.genres
  {
    db.(reviews := db.reviews - {rv},
        comments := map k | k in db.comments && db.comments[k].review != rv :: db.comments[k])
  }

  /**
   * Deleting the account `u`: its reviews and its comments go (`CASCADE`
   * on both `author` keys), and so do the comments of other accounts on
   * the reviews that go.
   */
  function DeleteUser(db: Db, u: nat): (r: Db)
    ensures r.users.Keys == db.users.Keys - {u}
    ensures forall k :: k in r.users ==> r.users[k] == db.users[k]
    ensures forall k :: k in r.reviews <==> k in db.reviews && db.reviews[k].author != u
    ensures forall k :: k in r.reviews ==> r.reviews[k] == db.reviews[k]
    ensures forall k :: k in r.comments <==>
              k in db.comments && db.comments[k].author != u &&
              !(db.comments[k].review in db.reviews && db.reviews[db.comments[k].review].author == u)
    ensures forall k :: k in r.comments ==> r.comments[k] == db.comments[k]
    ensures r.titles == db.titles && r.categories == db.categories && r.genres == db.genres
  {
    var users := db.users - {u};
    var reviews := map k | k in db.reviews && db.reviews[k].author != u :: db.reviews[k];
    var comments := map k | k in db.comments && db.comments[k].author != u &&
                            !Orphaned(db.comments[k].review, db.reviews, reviews)
                          :: db.comments[k];
    assert forall k :: k in comments ==> comments[k] == db.comments[k];
    db.(users := users, reviews := reviews, comments := comments)
  }

  /**
   * Deleting the category `c`: its titles stay and lose their category
   * (`on_delete=SET_NULL`).
   */
  function DeleteCategory(db: Db, c: nat): (r: Db)
    ensures r.categories.Keys == db.categories.Keys - {c}
    ensures forall k :: k in r.categories ==> r.categories[k] == db.categories[k]
    ensures r.titles.Keys == db.titles.Keys
    ensures forall k :: k in db.titles && db.titles[k].category == Some(c) ==>
              r.titles[k] == db.titles[k].(category := None)
    ensures forall k :: k in db.titles && db.titles[k].category != Some(c) ==> r.titles[k] == db.titles[k]
    ensures r.users == db.users && r.genres == db.genres
    ensures r.reviews == db.reviews && r.comments == db.comments
  {
    db.(categories := db.categories - {c},
        titles := map k | k in db.titles ::
          if db.titles[k].category == Some(c) then db.titles[k].(category := None) else db.titles[k])
  }

  /**
   * Deleting the genre `g`: the rows of the many-to-many table that name it
   * go, so every title forgets it, and the titles stay.
   */
  function DeleteGenre(db: Db, g: nat): (r: Db)
    ensures r.genres.Keys == db.genres.Keys - {g}
    ensures forall k :: k in r.genres ==> r.genres[k] == db.genres[k]
    ensures r.titles.Keys == db.titles.Keys
    ensures forall k :: k in r.titles ==> r.titles[k] == db.titles[k].(genres := db.titles[k].genres - {g})
    ensures r.users == db.users && r.categories == db.categories
    ensures r.reviews == db.reviews && r.comments == db.comments
  {
    db.(genres := db.genres - {g},
        titles := map k | k in db.titles :: db.titles[k].(genres := db.titles[k].genres - {g}))
  }

  /** Deleting the comment `c` touches no other row. */
  function DeleteComment(db: Db, c: nat): (r: Db)
    ensures r.comments.Keys == db.comments.Keys - {c}
    ensures forall k :: k in r.comments ==> r.comments[k] == db.comments[k]
    ensures r.users == db.users && r.titles == db.titles && r.reviews == db.reviews
    ensures r.categories == db.categories && r.genres == db.genres
  {
    db.(comments := db.comments - {c})
  }

  /**
   * The cascade of a title delete is complete: the database stays valid,
   * and no surviving review or comment hangs off the title.
   */
  lemma DeleteTitleKeepsValid(db: Db, t: nat)
    requires Valid(db)
    ensures Valid(DeleteTitle(db, t))
    ensures forall k :: k in DeleteTitle(db, t).comments ==>
              DeleteTitle(db, t).reviews[DeleteTitle(db, t).comments[k].review].title != t
  {
    SubDbValid(db, DeleteTitle(db, t));
  }

  lemma DeleteReviewKeepsValid(db: Db, rv: nat)
    requires Valid(db)
    ensures Valid(DeleteReview(db, rv))
  {
    SubDbValid(db, DeleteReview(db, rv));
  }

  /**
   * The cascade of an account delete is complete: the database stays
   * valid, and no surviving review or comment is by the account or on one
   * of its reviews.
   */
  lemma DeleteUserKeepsValid(db: Db, u: nat)
    requires Valid(db)
    ensures Valid(DeleteUser(db, u))
    ensures forall k :: k in DeleteUser(db, u).comments ==>
              DeleteUser(db, u).reviews[DeleteUser(db, u).comments[k].review].author != u
  {
    var next := DeleteUser(db, u);
    DeleteUserReferences(db, u);
    SubDbValid(db, next);
  }

  /** Every row that survives an account delete refers to surviving rows. */
  lemma DeleteUserReferences(db: Db, u: nat)
    requires Valid(db)
    ensures forall k :: k in DeleteUser(db, u).reviews ==> DeleteUser(db, u).reviews[k].author in DeleteUser(db, u).users
    ensures forall k :: k in DeleteUser(db, u).comments ==>
              DeleteUser(db, u).comments[k].review in DeleteUser(db, u).reviews &&
              DeleteUser(db, u).comments[k].author in DeleteUser(db, u).users
  {
    var next := DeleteUser(db, u);
    forall k | k in next.reviews
      ensures next.reviews[k].author in next.users
    {
      assert next.reviews[k] == db.reviews[k];
    }
    forall k | k in next.comments
      ensures next.comments[k].review in next.reviews && next.comments[k].author in next.users
    {
      assert next.comments[k] == db.comments[k];
    }
  }

  /** Nulling the category of its titles keeps every reference resolvable. */
  lemma DeleteCategoryKeepsValid(db: Db, c: nat)
    requires Valid(db)
    ensures Valid(DeleteCategory(db, c))
  {
    UniqueOnSubmap(db.categories, DeleteCategory(db, c).categories, CategorySlug);
  }

  lemma DeleteGenreKeepsValid(db: Db, g: nat)
    requires Valid(db)
    ensures Valid(DeleteGenre(db, g))
  {
    UniqueOnSubmap(db.genres, DeleteGenre(db, g).genres, GenreSlug);
  }

  lemma DeleteCommentKeepsValid(db: Db, c: nat)
    requires Valid(db)
    ensures Valid(DeleteComment(db, c))
  {
    SubDbValid(db, DeleteComment(db, c));
  }
}

=== FILE: text.dfy ===
/** The few string operations of Python the modelled code relies on. */
module Text {

  /**
   * Python's `str.isspace()` on one character, which is what `str.strip()`
   * removes: space, tab to carriage return, the separators U+1C to U+1F,
   * U+85, U+A0, U+1680, U+2000 to U+200A, U+2028, U+2029, U+202F, U+205F
   * and U+3000.
   */
  predicate IsSpace(c: char) {
    || c == ' '
    || ('\t' <= c <= '\r')
    || ('\U{1C}' <= c <= '\U{1F}')
    || c == '\U{85}' || c == '\U{A0}' || c == '\U{1680}'
    || ('\U{2000}' <= c <= '\U{200A}')
    || c == '\U{2028}' || c == '\U{2029}' || c == '\U{202F}' || c == '\U{205F}' || c == '\U{3000}'
  }

  /** Every character of `s` is whitespace (vacuously so for the empty string). */
  predicate AllSpace(s: string) {
    forall i :: 0 <= i < |s| ==> IsSpace(s[i])
  }

  /** The first index at or after `i` that does not hold whitespace, or `|s|`. */
  function SkipSpace(s: string, i: nat): (n: nat)
    requires i <= |s|
    ensures i <= n <= |s|
    ensures forall k :: i <= k < n ==> IsSpace(s[k])
    ensures n == |s| || !IsSpace(s[n])
    decreases |s| - i
  {
    if i < |s| && IsSpace(s[i]) then SkipSpace(s, i + 1) else i
  }

  /**
   * Walking back from `j`, but not past `lo`: the least index `m` such that
   * `s[m..j]` is all whitespace.
   */
  function SkipSpaceBack(s: string, lo: nat, j: nat): (m: nat)
    requires lo <= j <= |s|
    ensures lo <= m <= j
    ensures forall k :: m <= k < j ==> IsSpace(s[k])
    ensures m == lo || !IsSpace(s[m - 1])
    decreases j
  {
    if j > lo && IsSpace(s[j - 1]) then SkipSpaceBack(s, lo, j - 1) else j
  }

  /** `s.strip()`: drops leading and trailing whitespace, and nothing else. */
  function Strip(s: string): (r: string)
    ensures r == [] || (!IsSpace(r[0]) && !IsSpace(r[|r| - 1]))
    ensures r == [] <==> AllSpace(s)
    ensures var a := SkipSpace(s, 0);
            && a + |r| <= |s| && r == s[a..a + |r|]
            && AllSpace(s[..a]) && AllSpace(s[a + |r|..])
  {
    var a := SkipSpace(s, 0);
    var b := SkipSpaceBack(s, a, |s|);
    assert a < |s| ==> a < b;
    assert a < |s| ==> !AllSpace(s);
    s[a..b]
  }

  /** Python's `w in s` for strings: `w` occurs in `s` as a contiguous piece. */
  predicate Mentions(s: string, w: string) {
    exists i | 0 <= i <= |s| - |w| :: OccursAt(s, w, i)
  }

  /** `w` occurs in `s` starting at index `i`. */
  predicate OccursAt(s: string, w: string, i: int) {
    0 <= i <= |s| - |w| && s[i..i + |w|] == w
  }

  /** No character `a` is directly followed by a character `b` in `s`. */
  predicate NoPair(s: string, a: char, b: char) {
    forall i | 0 <= i < |s| - 1 :: !(s[i] == a && s[i + 1] == b)
  }

  /** A string without `b` has no pair ending in `b`. */
  lemma MissingLetterNoPair(s: string, a: char, b: char)
    requires b !in s
    ensures NoPair(s, a, b)
  {
    forall i | 0 <= i < |s| - 1
      ensures !(s[i] == a && s[i + 1] == b)
    {
      assert s[i + 1] in s;
    }
  }

  /** Two pieces without the pair, joined where the pair cannot form, have none. */
  lemma {:induction false} NoPairConcat(u: string, v: string, a: char, b: char)
    requires NoPair(u, a, b) && NoPair(v, a, b)
    requires u == [] || v == [] || u[|u| - 1] != a || v[0] != b
    ensures NoPair(u + v, a, b)
  {
    var s := u + v;
    forall i | 0 <= i < |s| - 1
      ensures !(s[i] == a && s[i + 1] == b)
    {
      if i + 1 < |u| {
        assert s[i] == u[i] && s[i + 1] == u[i + 1];
      } else if i >= |u| {
        assert s[i] == v[i - |u|] && s[i + 1] == v[i + 1 - |u|];
      } else {
        assert s[i] == u[|u| - 1] && s[i + 1] == v[0];
      }
    }
  }

  /** A string without the pair `w[0] w[1]` cannot contain `w`. */
  lemma {:induction false} NoPairRulesOut(s: string, w: string)
    requires |w| >= 2 && NoPair(s, w[0], w[1])
    ensures !Mentions(s, w)
  {
    forall i | 0 <= i <= |s| - |w|
      ensures !OccursAt(s, w, i)
    {
      assert s[i..i + |w|][0] == s[i] && s[i..i + |w|][1] == s[i + 1];
    }
  }
}

=== FILE: users.dfy ===
/**
 * The account record of users/models.py (`CustomUser`), its role choices and
 * defaults, the reserved-username validator of users/validators.py, and the
 * two permission hooks the admin site calls.
 */
module Users {
  import opened Outcomes

  /** The three entries of `ROLE_CHOICES`. */
  datatype Role = User | Moderator | Admin {
    /** The value stored in the `role` column. */
    function Name(): string {
      match this
      case User => "user"
      case Moderator => "moderator"
      case Admin => "admin"
    }
  }

  /** The choice a stored `role` string stands for, if it is one of the choices. */
  function ParseRole(s: string): (r: Option<Role>)
    ensures r.Some? ==> r.value.Name() == s
    ensures r.None? ==> forall role: Role :: role.Name() != s
  {
    if s == "user" then Some(User)
    else if s == "moderator" then Some(Moderator)
    else if s == "admin" then Some(Admin)
    else None
  }

  /** Parsing the stored name of a role gives that role back. */
  lemma ParseRoleRoundTrip(role: Role)
    ensures ParseRole(role.Name()) == Some(role)
  {
  }

  /** The column default of `role`. */
  const DefaultRole: string := "user"

  /** The column default is the stored name of the plain user role. */
  lemma DefaultRoleIsUser()
    ensures ParseRole(DefaultRole) == Some(User)
    ensures DefaultRole == User.Name()
  {
  }

  /** The `CustomUser` row. The role is the stored string, so a value outside the choices can be represented. */
  datatype Account = Account(
    pk: nat,
    username: string,
    email: string,
    role: string,
    bio: string,
    firstName: string,
    lastName: string,
    isActive: bool,
    isAdmin: bool,
    isStaff: bool,
    isSuperuser: bool)

  /**
   * The instance `CustomUserManager.create_user` builds before saving it:
   * the given identity, every flag at its column default.
   */
  function NewAccount(pk: nat, email: string, username: string, role: string, bio: string): (a: Account)
    ensures a.pk == pk && a.email == email && a.username == username && a.role == role && a.bio == bio
    ensures a.isActive && !a.isAdmin && !a.isStaff && !a.isSuperuser
    ensures a.firstName == "" && a.lastName == ""
  {
    Account(pk, username, email, role, bio, "", "", true, false, false, false)
  }

  /** The username path segment that stands for the requester's own account. */
  const ReservedUsername: string := "me"

  const ReservedUsernameMessage: string := "username \"me\" недоступен для регистрации!"

  /** `validate_username` of users/validators.py: refuses the reserved name, compared exactly. */
  function ValidateUsername(value: string): (r: Result<string, string>)
    ensures r.Err? <==> value == ReservedUsername
    ensures r.Ok? ==> r.value == value
  {
    if value == ReservedUsername then Err(ReservedUsernameMessage) else Ok(value)
  }

  /** The comparison is case-sensitive and admits the empty string. */
  lemma ValidateUsernameIsExact()
    ensures ValidateUsername("Me") == Ok("Me")
    ensures ValidateUsername("ME") == Ok("ME")
    ensures ValidateUsername("") == Ok("")
    ensures ValidateUsername("me").Err?
  {
  }

  /**
   * Part of what `full_clean()` checks of a row: the `validate_username`
   * validator, the role choices, the declared maximum lengths, and that the
   * fields without `blank=True` are non-empty. The `EmailField` syntax check
   * is not modelled. `Model.save()` does not run any of it.
   */
  predicate FullClean(a: Account) {
    && ValidateUsername(a.username).Ok?
    && ParseRole(a.role).Some?
    && 0 < |a.username| <= 30
    && 0 < |a.email| <= 60
    && |a.role| <= 64
    && |a.firstName| <= 150
    && |a.lastName| <= 150
  }

  /** An account that passes model validation never holds the reserved username, and has a known role. */
  lemma CleanAccountNotReserved(a: Account)
    requires FullClean(a)
    ensures a.username != ReservedUsername
    ensures exists role: Role :: role.Name() == a.role
  {
    assert ParseRole(a.role).value.Name() == a.role;
  }

  /** `has_perm`: the answer is the `is_admin` flag, whatever permission is asked. */
  function HasPerm(a: Account, perm: string): (r: bool)
    ensures r <==> a.isAdmin
  {
    a.isAdmin
  }

  /** `has_module_perms`: every app is visible to every account. */
  function HasModulePerms(a: Account, appLabel: string): (r: bool)
    ensures r
  {
    true
  }

  /** `has_perm` does not look at the permission it is asked about. */
  lemma HasPermIgnoresPermission(a: Account, p: string, q: string)
    ensures HasPerm(a, p) == HasPerm(a, q)
  {
  }
}

=== FILE: validators.dfy ===
/**
 * The standalone validators of api/validators.py and reviews/validators.py.
 * `date.today().year` is the parameter `currentYear`.
 */
module Validators {
  import opened Outcomes
  import opened Store

  const SlugTakenMessage: string := "Slug не уникален."
  const FutureYearMessage: string := "Год выпуска не может быть больше текущего!"

  /** Some existing category already has this slug. */
  predicate SlugTaken(categories: map<nat, Category>, slug: string) {
    exists k | k in categories :: categories[k].slug == slug
  }

  /** `category_slug_validator`: refuses a slug some category already has, else passes it through. */
  function CategorySlugValidator(value: string, categories: map<nat, Category>): (r: Result<string, string>)
    ensures r.Err? <==> exists k :: k in categories && categories[k].slug == value
    ensures r.Ok? ==> r.value == value
  {
    if SlugTaken(categories, value) then Err(SlugTakenMessage) else Ok(value)
  }

  /** `title_year_validator`: a year between 0 and the current year, both included, passes unchanged. */
  function TitleYearValidator(value: int, currentYear: int): (r: Result<int, string>)
    ensures r.Ok? <==> 0 <= value <= currentYear
    ensures r.Ok? ==> r.value == value
  {
    if value > currentYear || value < 0 then Err(FutureYearMessage) else Ok(value)
  }

  /** `validate_year` of reviews/validators.py: only an upper bound; the year passes unchanged. */
  function ValidateYear(value: int, currentYear: int): (r: Result<int, string>)
    ensures r.Ok? <==> value <= currentYear
    ensures r.Ok? ==> r.value == value
  {
    if currentYear < value then Err(FutureYearMessage) else Ok(value)
  }

  /** The current year itself is accepted by both year validators. */
  lemma CurrentYearAccepted(currentYear: int)
    ensures ValidateYear(currentYear, currentYear) == Ok(currentYear)
    ensures currentYear >= 0 ==> TitleYearValidator(currentYear, currentYear) == Ok(currentYear)
  {
  }

  /**
   * The two year validators differ on negative years only:
   * `title_year_validator` accepts a subset of what `validate_year` does,
   * and `validate_year` takes every negative year `title_year_validator` refuses.
   */
  lemma YearValidatorsDifferOnNegatives(value: int, currentYear: int)
    ensures TitleYearValidator(value, currentYear).Ok? ==> ValidateYear(value, currentYear).Ok?
    ensures ValidateYear(value, currentYear).Ok? && TitleYearValidator(value, currentYear).Err? <==> value < 0 && value <= currentYear
  {
  }

  /** A category inserted with a slug the validator passed keeps the slug column unique. */
  lemma ValidatedSlugInsertSucceeds(db: Db, pk: nat, name: string, slug: string)
    requires pk !in db.categories
    requires CategorySlugValidator(slug, db.categories).Ok?
    ensures InsertCategory(db, pk, Category(name, slug)).Ok?
  {
  }
}

=== FILE: views.dfy ===
/**
 * The two authentication endpoints of api/views.py: `signup` and
 * `GetTokenApiView.post`. Each takes the database and the request body and
 * gives back the database after the request, what the view returns or
 * raises, and the mail it sends. The code generator, the access token, the
 * email check and `serializer.save()` are the parameters in `Env`.
 */
module Views {
  import opened Outcomes
  import opened Text
  import opened Fields
  import opened Users
  import opened Store
  import opened Serializers

  const Status200: nat := 200
  const Status201: nat := 201
  const Status400: nat := 400
  const Status404: nat := 404

  const CheckEmailMessage: string := "Пожалуйста, проследуйте инструкциям на email"
  const WrongEmailAddressMessage: string := "Указан неверный email пользователя"
  const InvalidRequestMessage: string := "Невалидный запрос к API."
  const UserNotFoundMessage: string := "Пользователь не найден"

  const MailSubject: string := "Email confirmation. YamDb."
  const MailGreeting: string := "Для завершения регистрации подтвердите Ваш email."
  const CodeMarker: string := "\nToken:"

  /** What a view hands to `Response`: a text, the token object, or the serializer's errors. */
  datatype Body = Message(text: string) | Token(token: string) | FieldErrors(errors: Errors)

  datatype Response = Response(status: nat, body: Body)

  /** An `EmailMessage` as built; `send()` is delivery, which is not modelled. */
  datatype Mail = Mail(subject: string, body: string, to: seq<string>)

  /** A view either returns a response or raises. */
  datatype Outcome = Respond(response: Response) | Raise(fault: Fault)

  /** The database after the request, the outcome, and the mail sent, in order. */
  datatype Exchange = Exchange(db: Db, outcome: Outcome, outbox: seq<Mail>)

  /**
   * The collaborators the views call but whose code is elsewhere:
   * Django's email validator, `serializer.save()` (the serializer defines no
   * `create`), the confirmation-code generator and its check, and the access
   * token of `RefreshToken.for_user`.
   */
  datatype Env = Env(
    isEmail: string -> bool,
    obtain: (Db, SignUpData) -> Account,
    makeToken: Account -> string,
    checkToken: (Account, string) -> bool,
    accessToken: Account -> string)

  /** The body of the confirmation mail carrying `code`. */
  function ConfirmationBody(code: string): string {
    MailGreeting + CodeMarker + code
  }

  function ConfirmationMail(to: string, code: string): Mail {
    Mail(MailSubject, ConfirmationBody(code), [to])
  }

  /** What a reader of a confirmation mail takes as the code: all that follows the marker line. */
  function ExtractCode(body: string): (r: Option<string>)
    ensures r.Some? ==> body == MailGreeting + CodeMarker + r.value
  {
    var head := MailGreeting + CodeMarker;
    if |head| <= |body| && body[..|head|] == head then
      assert body == head + body[|head|..];
      Some(body[|head|..])
    else None
  }

  /** The code put in a confirmation mail is the one a reader takes out of it. */
  lemma ConfirmationCodeRoundTrip(to: string, code: string)
    ensures ExtractCode(ConfirmationMail(to, code).body) == Some(code)
  {
    var head := MailGreeting + CodeMarker;
    assert ConfirmationBody(code) == head + code;
    assert (head + code)[..|head|] == head;
    assert (head + code)[|head|..] == code;
  }

  function Say(status: nat, text: string): Outcome {
    Respond(Response(status, Message(text)))
  }

  // signup

  /**
   * The valid branch: the obtained user is made inactive and saved, a code
   * is made for it, and one mail carrying the code goes to the address as
   * submitted.
   */
  function Register(db: Db, data: map<string, string>, d: SignUpData, env: Env): (r: Exchange)
    requires Valid(db) && "email" in data
    ensures Valid(r.db)
    ensures r.outcome.Raise? <==> Clashes(db.users, env.obtain(db, d))
    ensures r.outcome.Raise? ==> r.db == db && r.outbox == [] && r.outcome.fault.IntegrityError?
    ensures r.outcome.Respond? ==>
              var pk := env.obtain(db, d).pk;
              && pk in r.db.users && !r.db.users[pk].isActive
              && r.outcome == Say(Status200, CheckEmailMessage)
              && |r.outbox| == 1 && r.outbox[0].to == [data["email"]]
              && ExtractCode(r.outbox[0].body) == Some(env.makeToken(r.db.users[pk]))
    ensures r.outcome.Respond? ==>
              r.db == db.(users := db.users[env.obtain(db, d).pk := env.obtain(db, d).(isActive := false)])
  {
    var user := env.obtain(db, d).(isActive := false);
    match SaveAccount(db, user)
    case Err(f) => Exchange(db, Raise(f), [])
    case Ok(next) =>
      ConfirmationCodeRoundTrip(data["email"], env.makeToken(user));
      Exchange(next, Say(Status200, CheckEmailMessage), [ConfirmationMail(data["email"], env.makeToken(user))])
  }

  /**
   * The resend branch, entered when the `username` errors mention `exists`:
   * the account is fetched by the raw username; a different raw email gets
   * a message and no mail, the same one gets a fresh code.
   */
  function Resend(db: Db, data: map<string, string>, env: Env): (r: Exchange)
    requires Valid(db)
    ensures r.db == db
    ensures |r.outbox| <= 1
    ensures r.outcome.Raise? <==>
              "username" !in data || "email" !in data ||
              (forall k :: k in db.users ==> db.users[k].username != data["username"])
    ensures r.outbox != [] ==>
              r.outcome == Say(Status200, CheckEmailMessage) && r.outbox[0].to == [data["email"]] &&
              exists k :: k in db.users && db.users[k].username == data["username"] &&
                db.users[k].email == data["email"] &&
                ExtractCode(r.outbox[0].body) == Some(env.makeToken(db.users[k]))
    ensures r.outcome.Respond? && r.outbox == [] ==> r.outcome == Say(Status200, WrongEmailAddressMessage)
    ensures "username" in data && "email" in data && FindByUsername(db.users, data["username"]).Some? ==>
              r.outcome.Respond? &&
              (r.outbox != [] <==> data["email"] == FindByUsername(db.users, data["username"]).value.email)
  {
    match Get(data, "username")
    case None => Exchange(db, Raise(KeyError("username")), [])
    case Some(name) =>
      match FindByUsername(db.users, name)
      case None => Exchange(db, Raise(DoesNotExist), [])
      case Some(user) =>
        match Get(data, "email")
        case None => Exchange(db, Raise(KeyError("email")), [])
        case Some(email) =>
          if email != user.email then Exchange(db, Say(Status200, WrongEmailAddressMessage), [])
          else
            ConfirmationCodeRoundTrip(email, env.makeToken(user));
            Exchange(db, Say(Status200, CheckEmailMessage), [ConfirmationMail(email, env.makeToken(user))])
  }

  /** The invalid branch: `serializer.errors['username']` is read whether or not the key is there. */
  function Reconsider(db: Db, data: map<string, string>, errors: Errors, env: Env): (r: Exchange)
    requires Valid(db)
    ensures r.db == db
    ensures "username" !in errors ==> r.outcome == Raise(KeyError("username")) && r.outbox == []
    ensures "username" in errors && !Mentions(Render(errors["username"]), "exists") ==>
              r.outcome == Say(Status200, InvalidRequestMessage) && r.outbox == []
  {
    if "username" !in errors then Exchange(db, Raise(KeyError("username")), [])
    else if Mentions(Render(errors["username"]), "exists") then Resend(db, data, env)
    else Exchange(db, Say(Status200, InvalidRequestMessage), [])
  }

  /** `signup` on a `POST` with body `data`. */
  function SignUp(db: Db, data: map<string, string>, env: Env): (r: Exchange)
    requires Valid(db)
    ensures Valid(r.db)
    ensures r.outcome.Respond? ==> r.outcome.response.status == Status200
  {
    match SignUpIsValid(db.users, data, env.isEmail)
    case Ok(d) => Register(db, data, d, env)
    case Err(errors) => Reconsider(db, data, errors, env)
  }

  /** The `username` errors of a sign-up never mention `exists`, so the resend branch is never taken. */
  lemma {:induction false} ResendBranchUnreachable(db: Db, data: map<string, string>, env: Env)
    requires Valid(db)
    requires SignUpIsValid(db.users, data, env.isEmail).Err?
    requires "username" in SignUpIsValid(db.users, data, env.isEmail).error
    ensures !Mentions(Render(SignUpIsValid(db.users, data, env.isEmail).error["username"]), "exists")
  {
    UsernameErrorsQuiet(data);
    RenderNeverSaysExists(SignUpIsValid(db.users, data, env.isEmail).error["username"]);
  }

  /**
   * A sign-up the serializer refuses changes nothing and sends nothing. It
   * raises `KeyError` when the username itself passed, and otherwise
   * answers with the invalid-request message.
   */
  lemma {:induction false} RefusedSignUpChangesNothing(db: Db, data: map<string, string>, env: Env)
    requires Valid(db)
    requires SignUpIsValid(db.users, data, env.isEmail).Err?
    ensures SignUp(db, data, env).db == db
    ensures SignUp(db, data, env).outbox == []
    ensures SignUp(db, data, env).outcome ==
              if UsernameAccepted(data) then Raise(KeyError("username")) else Say(Status200, InvalidRequestMessage)
  {
    if !UsernameAccepted(data) {
      ResendBranchUnreachable(db, data, env);
    }
  }

  /**
   * An existing username submitted with another email does not get the
   * wrong-email answer: `validate` files the error under
   * `non_field_errors`, and the lookup of `username` raises.
   */
  lemma MismatchedEmailRaises(db: Db, data: map<string, string>, env: Env)
    requires Valid(db)
    requires UsernameAccepted(data) && EmailAccepted(data, env.isEmail)
    requires EmailMismatch(db.users, Strip(data["username"]), Strip(data["email"]))
    ensures SignUp(db, data, env) == Exchange(db, Raise(KeyError("username")), [])
  {
    RefusedSignUpChangesNothing(db, data, env);
  }

  /** Mail goes out only for a payload the serializer accepts, and then one mail to the submitted address. */
  lemma {:induction false} MailOnlyOnValidSignUp(db: Db, data: map<string, string>, env: Env)
    requires Valid(db)
    requires SignUp(db, data, env).outbox != []
    ensures SignUpIsValid(db.users, data, env.isEmail).Ok?
    ensures |SignUp(db, data, env).outbox| == 1 && SignUp(db, data, env).outbox[0].to == [data["email"]]
  {
    if SignUpIsValid(db.users, data, env.isEmail).Err? {
      RefusedSignUpChangesNothing(db, data, env);
    }
  }

  /** When the resend branch sends a code, it answers exactly as a successful fresh sign-up does. */
  lemma ResendAnswersLikeRegister(db: Db, data: map<string, string>, d: SignUpData, env: Env)
    requires Valid(db) && "email" in data
    requires Resend(db, data, env).outbox != []
    requires Register(db, data, d, env).outcome.Respond?
    ensures Resend(db, data, env).outcome == Register(db, data, d, env).outcome
  {
  }

  // GetTokenApiView.post

  /**
   * `GetTokenApiView.post` with body `data`: never writes and never mails;
   * 400 with the errors for a bad payload, 201 with a token for a known user
   * and a good code, 404 otherwise.
   */
  function GetToken(db: Db, data: map<string, string>, env: Env): (r: Exchange)
    requires Valid(db)
    ensures r.db == db && r.outbox == [] && r.outcome.Respond?
    ensures r.outcome.response.status == Status400 <==> GetTokenIsValid(data).Err?
    ensures r.outcome.response.status == Status400 ==> r.outcome.response.body == FieldErrors(GetTokenIsValid(data).error)
    ensures r.outcome.response.status == Status201 <==>
              GetTokenIsValid(data).Ok? &&
              exists k :: k in db.users && db.users[k].username == GetTokenIsValid(data).value.username &&
                env.checkToken(db.users[k], GetTokenIsValid(data).value.confirmationCode)
    ensures r.outcome.response.status == Status201 ==>
              exists k :: k in db.users && db.users[k].username == GetTokenIsValid(data).value.username &&
                r.outcome.response.body == Token(env.accessToken(db.users[k]))
    ensures r.outcome.response.status in {Status201, Status400, Status404}
    ensures r.outcome.response.status == Status404 ==> r.outcome.response.body == Message(UserNotFoundMessage)
  {
    match GetTokenIsValid(data)
    case Err(errors) => Exchange(db, Respond(Response(Status400, FieldErrors(errors))), [])
    case Ok(t) =>
      match FindByUsername(db.users, t.username)
      case None => Exchange(db, Say(Status404, UserNotFoundMessage), [])
      case Some(user) =>
        if env.checkToken(user, t.confirmationCode) then
          Exchange(db, Respond(Response(Status201, Token(env.accessToken(user)))), [])
        else
          Exchange(db, Say(Status404, UserNotFoundMessage), [])
  }

  /** An unknown username and a wrong code for a known one get the very same answer. */
  lemma UnknownUserLooksLikeWrongCode(db: Db, other: Db, data: map<string, string>, env: Env)
    requires Valid(db) && Valid(other)
    requires GetTokenIsValid(data).Ok?
    requires forall k :: k in db.users ==> db.users[k].username != GetTokenIsValid(data).value.username
    requires exists k :: k in other.users && other.users[k].username == GetTokenIsValid(data).value.username &&
               !env.checkToken(other.users[k], GetTokenIsValid(data).value.confirmationCode)
    ensures GetToken(db, data, env).outcome == GetToken(other, data, env).outcome == Say(Status404, UserNotFoundMessage)
  {
    var k :| k in other.users && other.users[k].username == GetTokenIsValid(data).value.username &&
               !env.checkToken(other.users[k], GetTokenIsValid(data).value.confirmationCode);
    assert forall j :: j in other.users && other.users[j].username == other.users[k].username ==> j == k;
  }

  /** A sign-up that sends mail leaves the obtained account stored and inactive. */
  lemma {:induction false} SignUpDeactivates(db: Db, data: map<string, string>, env: Env)
    requires Valid(db)
    requires SignUp(db, data, env).outbox != []
    ensures SignUpIsValid(db.users, data, env.isEmail).Ok?
    ensures var pk := env.obtain(db, SignUpIsValid(db.users, data, env.isEmail).value).pk;
            pk in SignUp(db, data, env).db.users && !SignUp(db, data, env).db.users[pk].isActive
  {
    MailOnlyOnValidSignUp(db, data, env);
    var d := SignUpIsValid(db.users, data, env.isEmail).value;
    assert SignUp(db, data, env) == Register(db, data, d, env);
  }

  /**
   * A token request right after a sign-up leaves the new account inactive,
   * whether or not it gets a token.
   */
  lemma {:induction false} TokenLeavesAccountInactive(db: Db, data: map<string, string>, tokenData: map<string, string>, env: Env)
    requires Valid(db)
    requires SignUp(db, data, env).outbox != []
    ensures SignUpIsValid(db.users, data, env.isEmail).Ok?
    ensures var pk := env.obtain(db, SignUpIsValid(db.users, data, env.isEmail).value).pk;
            var after := GetToken(SignUp(db, data, env).db, tokenData, env);
            pk in after.db.users && !after.db.users[pk].isActive
  {
    SignUpDeactivates(db, data, env);
  }
}
